=== FILE: README.md ===
# π is irrational — epicycle visualizer, modelled in Dafny

The page draws the curve traced by the tip of three rotating vectors
(radii RADIUS_1, orbit A / 100 and orbit B / 100, with frequencies FREQ_1..FREQ_3) as the
parameter θ grows. θ is steered by autoplay, the mouse wheel and touch
drags, with inertia and a wall at θ = 0. Zoom and the two orbit radii ease
toward targets set by the info panel, and the panel also holds a
logarithmic zoom slider and a small chat with clickable links.

This project models that logic over `real`, as pure transition functions
on immutable records, and proves the behaviour each piece promises:

| module | file | what it models |
|---|---|---|
| `Numeric` | numeric.dfy | `Abs`/`Max`/`Min`, powers, and the geometric-decay bound (Bernoulli's inequality) behind every convergence proof |
| `Transcendental` | transcendental.dfy | the laws assumed of `Math.sin/cos/sqrt/pow/log` |
| `Physics` | physics.dfy | the θ tick of `updatePhysics`: autoplay, inertia, friction, the wall |
| `Easing` | easing.dfy | the 5 % lerp with snap of zoom, orbit A and orbit B |
| `Gestures` | gestures.dfy | wheel/touch handlers, play button, the `[isPlaying]` effect |
| `App` | app.dfy | src/App.tsx: the page state, presets, sliders writing targets |
| `LegacyApp` | legacy_app.dfy | root App.tsx: starts paused, sliders write values directly |
| `Epicycle` | epicycle.dfy | `calculateZ` |
| `Renderer` | renderer.dfy | the canvas smoother, step size, transform, sampling walk, decorations |
| `ZoomControl` | zoom_control.dfy | `toSlider`, `fromSlider`, `handleSliderChange`, the label |
| `Text` | text.dfy | JavaScript white space and `trim` |
| `Links` | links.dfy | `renderMessageText`: the URL split and the link rendering |
| `Chat` | chat.dfy | `handleSendMessage`: the transcript, the input guard, the outcomes |

`Math.sin`, `cos`, `sqrt`, `pow`, `log` and `log10` are function-valued
parameters. Each lemma that needs them states, as a precondition, the laws
it relies on (`TrigLaws`, `SqrtLaws`, `PowLaws`, `LogLaws`). The unseen
constants RADIUS_1 and FREQ_1..FREQ_3 are the fields of a `Terms` record.

React's split between state and refs is kept explicit. `playing` is the
`isPlaying` state a handler writes. `autoplay` is `isPlayingRef`, which the
frame loop reads. The `[isPlaying]` effect is its own input, `Commit`; it
copies the state into the ref and zeroes the velocity when play stops. One
consequence is proved rather than hidden: the wheel event that cancels
autoplay adds its impulse, and the effect that runs next wipes it out
(`Gestures.WheelThatStopsAutoplayIsAbsorbed`).

## Model

| member | source | states |
|---|---|---|
| Physics.Tick | src/App.tsx:120-142 | autoplay adds exactly 0.01 to θ and keeps the velocity; a manual frame with speed at most 0.00001 changes nothing; otherwise θ' = θ + v and v' = 0.95 v, or both become 0 when θ + v < 0; θ ≥ 0 is preserved |
| Physics.ManualTickSlows | src/App.tsx:129-137 | a manual frame never increases the speed and never reverses the direction |
| Physics.IdleStaysPut | src/App.tsx:129 | once the speed is at most 0.00001, any number of manual frames leave θ and velocity unchanged |
| Physics.CoastKeepsThetaNonNegative | src/App.tsx:130-134 | θ ≥ 0 survives any number of manual frames |
| Physics.CoastDecays | src/App.tsx:129-137 | after n manual frames the speed is at rest or at most 0.95^n times the first speed |
| Physics.ComesToRest | src/App.tsx:129-137 | inertia dies out: some finite number of manual frames reaches rest, and θ never moves again after it |
| Easing.Step | src/App.tsx:145-156 | one easing frame: beyond the snap threshold the value moves 5 % of the way, strictly between the old value and the target, and the gap shrinks by the factor 0.95; within it the value lands exactly on the target; the target never changes |
| Easing.SettledStaysPut | src/App.tsx:153 | a value on its target stays there forever |
| Easing.NoOvershoot | src/App.tsx:150-174 | after any number of frames the value lies between its start and its target |
| Easing.GapDecays | src/App.tsx:150-151 | after n frames the gap is zero or at most 0.95^n of the first gap |
| Easing.Converges | src/App.tsx:150-156 | with a positive threshold, finitely many frames put the value exactly on its target, where it stays |
| Gestures.Interact | src/App.tsx:189-192 | `handleUserInteraction` raises the interaction flag and leaves the motion, the play state, the ref and the touch sample alone |
| Gestures.RequestStop | src/App.tsx:213 | the stop request is decided by the ref: with autoplay on, playing is cleared; otherwise nothing changes |
| Gestures.OnWheel | src/App.tsx:208-217 | ignored while the panel is open; otherwise adds deltaY·0.0005 to velocity, marks interaction and requests a stop |
| Gestures.OnTouchStart | src/App.tsx:219-227 | an exempt target (input, scrollable panel) is ignored; otherwise records y, zeroes velocity, marks interaction and requests a stop |
| Gestures.OnTouchMove | src/App.tsx:229-240 | an exempt target is ignored; otherwise adds (lastY − y)·0.002 and then sets lastY to y; playing is not touched |
| Gestures.OnTogglePlay | src/App.tsx:336 | the play button requests the negation of the last rendered state (the value the ref holds), so from a settled state it flips playing; nothing else changes |
| Gestures.OnCommit | src/App.tsx:47-53 | the effect copies playing into the ref, zeroes the velocity when play was just turned off and keeps the motion when playing, leaves everything else alone, and is a no-op when nothing changed |
| Gestures.OnFrame | src/App.tsx:120-142 | the frame loop ticks θ using the ref, not the state |
| Gestures.Steer | src/App.tsx:208-246 | no steering input makes θ negative; only a frame moves θ |
| Gestures.WheelThatStopsAutoplayIsAbsorbed | src/App.tsx:47-53 | under autoplay the wheel's impulse is added, then wiped by the effect; the next frame is manual and leaves θ where it was |
| Gestures.WheelInManualModeKeepsImpulse | src/App.tsx:208-217 | in manual mode the effect does nothing and the wheel impulse survives |
| Gestures.TogglePlayThenCommit | src/App.tsx:47-53 | stopping from the button zeroes the velocity once the effect runs; starting keeps it; the ref ends up flipped |
| Gestures.WheelThenToggleStaysStopped | src/App.tsx:336 | a wheel event that cancels autoplay followed by the button before the effect runs leaves playback stopped, and the effect zeroes the velocity |
| Gestures.DragTelescopes | src/App.tsx:236-239 | touch-moves are incremental: a whole drag adds (first lastY − final y)·0.002 and leaves lastY at the final sample |
| App.Initial | src/App.tsx:13-41 | mount: θ = 0 at rest, autoplay on in both state and ref, panel closed, zoom 1, orbits 0 and 100 on their targets |
| App.OnFrame | src/App.tsx:120-174 | a frame ticks θ and eases zoom with threshold 0.01 and each orbit with threshold 0.1; the play state, the ref, the interaction flag and the touch sample are untouched |
| App.OnToggleInfo | src/App.tsx:262-277 | opening targets zoom 8, orbit A 90, orbit B 80; closing targets 1, 0, 100; drawn values and steering are untouched |
| App.Apply | src/App.tsx:279-287 | a slider writes its own target and nothing else; a frame is `OnFrame` and the toggle `OnToggleInfo`; every gesture, play or timer input acts on the steering alone and leaves the panel, the drawn values and the targets as they were |
| App.ValidIsInvariant | src/App.tsx:120-174 | every input whose zoom is at least 1 keeps θ ≥ 0 and zoom (drawn and target) ≥ 1 |
| App.ValidUnderInputs | src/App.tsx:120-287 | the same over any sequence of such inputs |
| App.ReachableIsValid | src/App.tsx:13-41 | every state reachable from mount has θ ≥ 0 and zoom ≥ 1 |
| App.FramesEase | src/App.tsx:145-174 | over a run of frames each parameter follows its own easing, independently |
| App.ToggleReachesPreset | src/App.tsx:262-277 | after a toggle, finitely many frames bring zoom, orbit A and orbit B exactly onto the new preset |
| LegacyApp.Initial | App.tsx:13-27 | the older page mounts paused, θ = 0 at rest, zoom 1, orbits 0 and 100 |
| LegacyApp.Apply | App.tsx:184-192 | sliders overwrite their value at once, the toggle flips only the panel, a frame moves only θ, every gesture, play or timer input acts on the steering alone (panel and values kept), and θ ≥ 0 is kept |
| LegacyApp.ThetaNeverNegative | App.tsx:42-64 | θ ≥ 0 in every state reached from a state with θ ≥ 0 |
| LegacyApp.IdleUntilTouched | App.tsx:22-59 | from mount, frames alone never move θ (a paused page: a simple fixed-point induction) |
| Epicycle.CalculateZ | components/CanvasVisualizer.tsx:22-50 | the three vectors run tip to tail from the origin to the point; each is its rotating term, with length RADIUS_1, radiusA, radiusB unclamped; the point is the sum of the terms |
| Epicycle.ChainSumsToPoint | components/CanvasVisualizer.tsx:41-48 | the vectors' displacements add up to the returned point |
| Epicycle.StartPoint | components/CanvasVisualizer.tsx:22-43 | with cos 0 = 1 and sin 0 = 0 the point at t = 0 is (RADIUS_1 + radiusA + radiusB, 0) |
| Epicycle.VectorsHaveTheirLength | components/CanvasVisualizer.tsx:45-47 | each drawn vector's Euclidean length equals its declared length, so its orbit circle passes through its end |
| Renderer.Smooth | components/CanvasVisualizer.tsx:57-63 | a gap under 0.0001 snaps to the target; otherwise the value moves 15 % of the way, strictly between; it never overshoots and stays ≥ 0 when both ends are |
| Renderer.SmoothGapDecays | components/CanvasVisualizer.tsx:58-62 | after n frames the smoothed θ is on target or the gap is at most 0.85^n of the first |
| Renderer.SmoothConverges | components/CanvasVisualizer.tsx:56-65 | for a fixed page θ the drawn θ reaches it exactly after finitely many frames |
| Renderer.SampleStep | components/CanvasVisualizer.tsx:120 | the step lies in [0.000005, 0.05]: always positive |
| Renderer.StepAtLowZoom | components/CanvasVisualizer.tsx:120 | at zoom at most 1 the step is exactly 0.05 |
| Renderer.StepNonIncreasing | components/CanvasVisualizer.tsx:120 | more zoom never gives a coarser step |
| Renderer.Measure | components/CanvasVisualizer.tsx:91-92 | a missing container or a zero side falls back to 800 × 600 |
| Renderer.Scale | components/CanvasVisualizer.tsx:98-99 | the scale is positive for a positive viewport and zoom |
| Renderer.ToScreen | components/CanvasVisualizer.tsx:93-99 | the math origin maps to the centre; x grows right and y grows up, both by the scale |
| Renderer.ScreenRoundTrip | components/CanvasVisualizer.tsx:123 | the transform is invertible whenever the scale is non-zero |
| Renderer.PathWidth | components/CanvasVisualizer.tsx:116 | the path width is 0.5 up to zoom 50, 0.1 beyond 5000, 0.25 between |
| Renderer.PathWidthNonIncreasing | components/CanvasVisualizer.tsx:116 | more zoom never widens the path |
| Renderer.LinkWidth | components/CanvasVisualizer.tsx:158 | the vector line width lies in (0, 1] |
| Renderer.JointSize | components/CanvasVisualizer.tsx:170 | a joint marker has radius at least 1 |
| Renderer.DotSize | components/CanvasVisualizer.tsx:182 | the head marker has radius at least 1.5 |
| Renderer.MarkersShrinkWithZoom | components/CanvasVisualizer.tsx:170-182 | markers never grow with zoom, and the head is never smaller than a joint |
| Renderer.Decorate | components/CanvasVisualizer.tsx:135-185 | per vector an orbit circle of radius length·scale at its start, the vector itself (only the last highlighted), a joint at its start; the head marker on the curve point |
| Renderer.SampleTimes | components/CanvasVisualizer.tsx:125 | the loop visits 0, step, 2·step, … strictly increasing, all ≤ θ, stopping at the first one past θ; none when θ < 0 |
| Renderer.TracePath | components/CanvasVisualizer.tsx:122-131 | the path starts at calculateZ(0), visits every sample in order and ends on exactly calculateZ(θ) |
| Renderer.Draw | components/CanvasVisualizer.tsx:73-190 | one draw: that path with the zoom-adaptive step, the path width, the overlay exactly when zoom < 50000 and then precisely the decoration of the curve sample (orbits, links, joints ≥ 1, head ≥ 1.5 on the curve point), and the reported point calculateZ(θ) either way |
| ZoomControl.ToSlider | components/ZoomControl.tsx:12 | `toSlider`: the maximum zoom sits at position 100, and the position is 0 exactly where the logarithm of the zoom is 0 |
| ZoomControl.FromSlider | components/ZoomControl.tsx:13 | `fromSlider`: every position gives a positive zoom, position 0 gives zoom 1 and position 100 the maximum zoom |
| ZoomControl.OnSliderChange | components/ZoomControl.tsx:18-25 | a slider value below 0.01 sends zoom 1 exactly, any other sends fromSlider |
| ZoomControl.SliderZoomInRange | components/ZoomControl.tsx:11-24 | over the slider range [0, 100] every zoom sent lies in [1, 333333], and above the snap it exceeds 1 |
| ZoomControl.FromSliderIncreasing | components/ZoomControl.tsx:13 | fromSlider is strictly increasing |
| ZoomControl.SliderRoundTrip | components/ZoomControl.tsx:12-13 | toSlider(fromSlider(s)) = s |
| ZoomControl.SliderChangeRoundTrip | components/ZoomControl.tsx:12-24 | toSlider of the zoom a slider move sends (the new target) is the position moved to, or 0 inside the snap zone |
| ZoomControl.ZoomLabel | components/ZoomControl.tsx:35-37 | thousands ("k") exactly when zoom ≥ 1000; the label's magnitude times its unit gives back the zoom |
| ZoomControl.LabelText | components/ZoomControl.tsx:35-37 | the text starts with "x" and ends with "k" in the thousands case |
| Text.Trim | components/InfoPanel.tsx:50-52 | `trim` returns a slice of the input that neither starts nor ends with white space, having cut off only white space |
| Text.TrimEmptyIffBlank | components/InfoPanel.tsx:50 | a string trims to nothing exactly when it is all white space |
| Links.PrefixAtIsSlice | components/InfoPanel.tsx:88 | matching the scheme one character at a time agrees with comparing the slice of the same length |
| Links.MatchAt | components/InfoPanel.tsx:88 | the match anchored at a position ends inside the message and, when there is one, is longer than the scheme |
| Links.MatchAtIsLongestUrl | components/InfoPanel.tsx:88 | a match at i is a URL and the longest URL starting at i; no match means no URL starts at i |
| Links.MatchTableIsSound | components/InfoPanel.tsx:88 | the per-position match lengths are sound: a positive entry spans a URL and a zero entry means no URL starts there |
| Links.GapHasNoUrl | components/InfoPanel.tsx:89 | a stretch of the message at whose positions no URL starts still contains no URL once cut out on its own |
| Links.Split | components/InfoPanel.tsx:88-89 | the split has an odd number of pieces that concatenate back to the message; odd-numbered pieces are URLs and the others contain none; each plain piece runs up to the leftmost position where a URL starts, and each URL piece is the longest URL starting there |
| Links.SplitIsTheOnlyTiling | components/InfoPanel.tsx:88-89 | any list of pieces that cuts the message at leftmost, longest URLs is the split itself |
| Links.RenderPiece | components/InfoPanel.tsx:90-104 | a piece becomes a link to itself exactly when it contains a match, and its text is the piece |
| Links.RenderMessage | components/InfoPanel.tsx:87-105 | `renderMessageText`: the pieces' texts cut the message at leftmost, longest URLs; links sit exactly at the odd positions, each a URL pointing at itself; and the shown text is the message unchanged |
| Chat.Initial | components/InfoPanel.tsx:33-37 | the transcript starts as the single greeting from the model, input empty, not loading |
| Chat.OnEdit | components/InfoPanel.tsx:153 | editing the input replaces its text and leaves the transcript and the loading flag alone |
| Chat.Submit | components/InfoPanel.tsx:48-70 | refused exactly when loading or the input is blank; otherwise clears the input, appends the trimmed user message, sets loading and sends all earlier messages followed by the new one |
| Chat.ReplyText | components/InfoPanel.tsx:76-80 | the reply text, "..." for an empty or missing reply, and the fixed network-error line on failure; never empty |
| Chat.Complete | components/InfoPanel.tsx:76-83 | the outcome appends one model message and loading ends in both cases |
| Chat.WellFormedIsInvariant | components/InfoPanel.tsx:34-84 | every admissible event keeps the greeting first, roles alternating and loading exactly when the user spoke last, and only appends |
| Chat.ReachableWellFormed | components/InfoPanel.tsx:34-84 | the same over any admissible event sequence |
| Chat.ExchangeAddsTwoTurns | components/InfoPanel.tsx:52-83 | a send and its completion add exactly the trimmed user message and the model's text |

## Left out

- Audio: the Web Audio engine and its resume logic have no stateable behaviour.
- Scheduling: `requestAnimationFrame`, listener attach/detach and effect lifecycles are left out. A frame, the `[isPlaying]` effect and the 1-second interaction timer are explicit inputs (`Frame`, `Commit`, `ActivityTimeout`). A touch target's exemption (`tagName`, `closest`) is a boolean.
- Canvas side effects: `getContext`, device-pixel-ratio resizing, colours and grid opacity are left out. `arc` and `stroke` calls become the `Drawing` record.
- Floating point: all arithmetic is on exact reals, so there is no IEEE rounding and no NaN or Infinity.
- Renderer.SampleTimes: the loop's `t += step` is modelled as t = k·step, without the drift of repeated floating-point addition.
- Renderer.Draw: requires zoom > 0. Every zoom the pages produce is at least 1, and `Math.pow` at zoom ≤ 0 would yield NaN or a division by zero. The early returns when there is no canvas or no 2-D context (nothing drawn, `onUpdate` not called) are not modelled: a draw always has a canvas.
- Renderer.JointSize and Renderer.DotSize: both require pow(zoom, 0.3) > 0, for the same reason.
- ZoomControl.LabelText: `toFixed(1)` is a formatter parameter, so the label's digits are not modelled.
- ZoomControl.SliderChangeRoundTrip: states the position for the zoom the move sends, i.e. the new target. The newer page feeds the slider the eased drawn zoom (src/App.tsx:304), so right after a move the thumb shows the old drawn value and reaches the moved-to position only once easing has settled.
- Epicycle and Renderer take the radii as given. Both pages pass orbit A / 100 and orbit B / 100 to the canvas, and that division sits in the pages' markup, which is not modelled.
- ZoomControl: the `isNaN(sliderVal) ? 0` guard has no counterpart, because a real logarithm of a valid zoom is never NaN.
- Chat: the GoogleGenAI client, the API key, the system prompt and `scrollIntoView` are not modelled. A request's result is an `Outcome` input: a reply whose text may be absent, or a failure.
- Chat.Complete: does not itself require a request in flight. The invariant lemmas assume it, because the send guard keeps at most one request outstanding.
- Display-only code: components/DataPanel.tsx and all JSX/CSS styling are not part of this model. That includes the "YOU"/"SPII" labels and the "procesando..." indicator.
- Source files not part of this model: the `constants` and `types` modules. RADIUS_1 and FREQ_1..FREQ_3 are the `Terms` parameter.

=== FILE: app.dfy ===
/** The newer page (src/App.tsx): steering as in `Gestures`, autoplay on at
    start, and zoom / orbit A / orbit B eased toward targets that only the
    info toggle presets and the sliders write. */
module App {
  import opened Physics
  import opened Easing
  import opened Gestures

  /** The "edit mode" preset applied when the info panel opens. */
  const OPEN_ZOOM: real := 8.0
  const OPEN_ORBIT_A: real := 90.0
  const OPEN_ORBIT_B: real := 80.0
  /** The default preset applied when it closes (also the start values). */
  const CLOSED_ZOOM: real := 1.0
  const CLOSED_ORBIT_A: real := 0.0
  const CLOSED_ORBIT_B: real := 100.0

  datatype Page = Page(
    steering: Steering,
    infoOpen: bool,
    zoom: Eased,
    orbitA: Eased,
    orbitB: Eased
  )

  /** The state at mount: θ = 0 at rest, autoplay on, panel closed, every
      parameter sitting on its default target. */
  function Initial(): (p: Page)
    ensures p.steering.motion == Motion(0.0, 0.0)
    ensures p.steering.playing && p.steering.autoplay && Settled(p.steering)
    ensures !p.infoOpen
    ensures p.zoom == Eased(CLOSED_ZOOM, CLOSED_ZOOM)
    ensures p.orbitA == Eased(CLOSED_ORBIT_A, CLOSED_ORBIT_A)
    ensures p.orbitB == Eased(CLOSED_ORBIT_B, CLOSED_ORBIT_B)
  {
    Page(Steering(Motion(0.0, 0.0), true, true, 0.0, false), false,
         Eased(1.0, 1.0), Eased(0.0, 0.0), Eased(100.0, 100.0))
  }

  /** One frame of `updatePhysics`: the θ tick, then the three eased
      parameters, each with its own snap threshold. */
  function OnFrame(p: Page): (r: Page)
    ensures r.steering.motion == Tick(p.steering.motion, p.steering.autoplay)
    ensures r.steering == p.steering.(motion := r.steering.motion)
    ensures r.zoom == Step(p.zoom, ZOOM_SNAP)
    ensures r.orbitA == Step(p.orbitA, ORBIT_SNAP)
    ensures r.orbitB == Step(p.orbitB, ORBIT_SNAP)
    ensures r.infoOpen == p.infoOpen
  {
    Page(Gestures.OnFrame(p.steering), p.infoOpen,
         Step(p.zoom, ZOOM_SNAP), Step(p.orbitA, ORBIT_SNAP), Step(p.orbitB, ORBIT_SNAP))
  }

  /** `handleToggleInfo`: flip the panel and retarget all three parameters
      to the edit preset (opening) or the default preset (closing); the
      drawn values are left to the easing. */
  function OnToggleInfo(p: Page): (r: Page)
    ensures r.infoOpen == !p.infoOpen
    ensures r.steering == p.steering
    ensures r.zoom.current == p.zoom.current && r.orbitA.current == p.orbitA.current
    ensures r.orbitB.current == p.orbitB.current
    ensures r.infoOpen ==>
              r.zoom.target == OPEN_ZOOM && r.orbitA.target == OPEN_ORBIT_A && r.orbitB.target == OPEN_ORBIT_B
    ensures !r.infoOpen ==>
              r.zoom.target == CLOSED_ZOOM && r.orbitA.target == CLOSED_ORBIT_A && r.orbitB.target == CLOSED_ORBIT_B
  {
    if !p.infoOpen then
      p.(infoOpen := true, zoom := Retarget(p.zoom, 8.0),
         orbitA := Retarget(p.orbitA, 90.0), orbitB := Retarget(p.orbitB, 80.0))
    else
      p.(infoOpen := false, zoom := Retarget(p.zoom, 1.0),
         orbitA := Retarget(p.orbitA, 0.0), orbitB := Retarget(p.orbitB, 100.0))
  }

  /** Every input of the page. Slider inputs write a target and nothing else;
      gesture, play and timer inputs act on the steering alone. */
  function Apply(p: Page, i: Input): (r: Page)
    ensures i.Frame? ==> r == OnFrame(p)
    ensures i.ToggleInfo? ==> r == OnToggleInfo(p)
    ensures !(i.Frame? || i.ToggleInfo? || i.SetZoom? || i.SetOrbitA? || i.SetOrbitB?) ==>
              r == p.(steering := Steer(p.steering, p.infoOpen, i))
    ensures i.SetZoom? ==> r == p.(zoom := Eased(p.zoom.current, i.zoom))
    ensures i.SetOrbitA? ==> r == p.(orbitA := Eased(p.orbitA.current, i.orbitA))
    ensures i.SetOrbitB? ==> r == p.(orbitB := Eased(p.orbitB.current, i.orbitB))
    ensures !i.Frame? && !i.ToggleInfo? ==> r.infoOpen == p.infoOpen
    ensures !i.Frame? ==> r.zoom.current == p.zoom.current && r.orbitA.current == p.orbitA.current
                          && r.orbitB.current == p.orbitB.current
  {
    match i
    case Frame => OnFrame(p)
    case ToggleInfo => OnToggleInfo(p)
    case SetZoom(v) => p.(zoom := Retarget(p.zoom, v))
    case SetOrbitA(v) => p.(orbitA := Retarget(p.orbitA, v))
    case SetOrbitB(v) => p.(orbitB := Retarget(p.orbitB, v))
    case _ => p.(steering := Steer(p.steering, p.infoOpen, i))
  }

  /** The zoom slider only ever sends values of at least 1 (see
      `ZoomControl.SliderZoomInRange`). */
  predicate Admissible(i: Input) {
    i.SetZoom? ==> i.zoom >= 1.0
  }

  /** What the page keeps true: θ is never negative, and zoom (drawn and
      target) never drops below 1. */
  predicate Valid(p: Page) {
    p.steering.motion.theta >= 0.0 && p.zoom.current >= 1.0 && p.zoom.target >= 1.0
  }

  /** Every admissible input keeps the page valid. */
  lemma ValidIsInvariant(p: Page, i: Input)
    requires Valid(p) && Admissible(i)
    ensures Valid(Apply(p, i))
  {
    if i.Frame? {
      Easing.NoOvershoot(p.zoom, ZOOM_SNAP, 1);
      assert Run(p.zoom, ZOOM_SNAP, 1) == Step(Run(p.zoom, ZOOM_SNAP, 0), ZOOM_SNAP);
    }
  }

  /** Admissible inputs applied in order. */
  function ApplyAll(p: Page, inputs: seq<Input>): Page
    decreases |inputs|
  {
    if |inputs| == 0 then p else ApplyAll(Apply(p, inputs[0]), inputs[1..])
  }

  /** Valid states stay valid under any admissible input sequence. */
  lemma {:induction false} ValidUnderInputs(p: Page, inputs: seq<Input>)
    requires Valid(p)
    requires forall k :: 0 <= k < |inputs| ==> Admissible(inputs[k])
    ensures Valid(ApplyAll(p, inputs))
    decreases |inputs|
  {
    if |inputs| > 0 {
      ValidIsInvariant(p, inputs[0]);
      ValidUnderInputs(Apply(p, inputs[0]), inputs[1..]);
    }
  }

  /** θ >= 0 and zoom >= 1 hold in every state reachable from mount. */
  lemma ReachableIsValid(inputs: seq<Input>)
    requires forall k :: 0 <= k < |inputs| ==> Admissible(inputs[k])
    ensures ApplyAll(Initial(), inputs).steering.motion.theta >= 0.0
    ensures ApplyAll(Initial(), inputs).zoom.current >= 1.0
  {
    ValidUnderInputs(Initial(), inputs);
  }

  /** n frames with no other input. */
  function Frames(p: Page, n: nat): Page
    decreases n
  {
    if n == 0 then p else Frames(OnFrame(p), n - 1)
  }

  /** Over a run of frames each parameter follows its own easing. */
  lemma {:induction false} FramesEase(p: Page, n: nat)
    ensures Frames(p, n).zoom == Run(p.zoom, ZOOM_SNAP, n)
    ensures Frames(p, n).orbitA == Run(p.orbitA, ORBIT_SNAP, n)
    ensures Frames(p, n).orbitB == Run(p.orbitB, ORBIT_SNAP, n)
    ensures Frames(p, n).infoOpen == p.infoOpen
    decreases n
  {
    if n > 0 {
      FramesEase(OnFrame(p), n - 1);
    }
  }

  /** After a toggle, finitely many frames bring zoom, orbit A and orbit B
      exactly onto the preset of the panel's new state. */
  lemma ToggleReachesPreset(p: Page) returns (n: nat)
    ensures Frames(OnToggleInfo(p), n).zoom.current
         == (if p.infoOpen then CLOSED_ZOOM else OPEN_ZOOM)
    ensures Frames(OnToggleInfo(p), n).orbitA.current
         == (if p.infoOpen then CLOSED_ORBIT_A else OPEN_ORBIT_A)
    ensures Frames(OnToggleInfo(p), n).orbitB.current
         == (if p.infoOpen then CLOSED_ORBIT_B else OPEN_ORBIT_B)
  {
    var q := OnToggleInfo(p);
    var nz := Converges(q.zoom, ZOOM_SNAP);
    var na := Converges(q.orbitA, ORBIT_SNAP);
    var nb := Converges(q.orbitB, ORBIT_SNAP);
    n := nz + na + nb;
    FramesEase(q, n);
    RunSplit(q.zoom, ZOOM_SNAP, nz, na + nb);
    assert Run(Run(q.zoom, ZOOM_SNAP, nz), ZOOM_SNAP, na + nb) == Run(q.zoom, ZOOM_SNAP, nz);
    RunSplit(q.orbitA, ORBIT_SNAP, na, nz + nb);
    assert na + (nz + nb) == n;
    assert Run(Run(q.orbitA, ORBIT_SNAP, na), ORBIT_SNAP, nz + nb) == Run(q.orbitA, ORBIT_SNAP, na);
    RunSplit(q.orbitB, ORBIT_SNAP, nb, nz + na);
    assert nb + (nz + na) == n;
    assert Run(Run(q.orbitB, ORBIT_SNAP, nb), ORBIT_SNAP, nz + na) == Run(q.orbitB, ORBIT_SNAP, nb);
  }
}

=== FILE: chat.dfy ===
/** The info panel's chat (`handleSendMessage`): a transcript that opens with
    the host's greeting, an input line, and a loading flag that keeps a
    single request in flight. The remote model is not modelled: a send
    yields the request it would make, and the reply (or the failure) comes
    back as a separate event. */
module Chat {
  import opened Text

  datatype Role = User | Model

  datatype Message = Message(role: Role, text: string)

  datatype Option<T> = None | Some(value: T)

  datatype Conversation = Conversation(input: string, messages: seq<Message>, loading: bool)

  const GREETING: string := "bienvenido al under. querés entrar a la jaula?"
  /** Shown for an empty or missing reply. */
  const EMPTY_REPLY: string := "..."
  /** Shown when the request fails. */
  const NETWORK_ERROR: string := "error de red. la jaula se cerró."

  /** What is sent to the model: the transcript before the new message as
      history, then the new user message. */
  datatype Request = Request(history: seq<Message>, prompt: string)

  /** How the request ended: a reply whose text may be absent, or an error. */
  datatype Outcome = Replied(text: Option<string>) | Failed

  datatype Event = Edit(text: string) | Send | Settle(outcome: Outcome)

  function Initial(): (c: Conversation)
    ensures c.messages == [Message(Model, GREETING)]
    ensures c.input == "" && !c.loading
  {
    Conversation("", [Message(Model, GREETING)], false)
  }

  /** The input's `onChange`. */
  function OnEdit(c: Conversation, text: string): (r: Conversation)
    ensures r.input == text && r.messages == c.messages && r.loading == c.loading
  {
    c.(input := text)
  }

  /** The send: refused while a request is in flight or when the input is
      blank; otherwise the trimmed input is appended as a user message, the
      input is cleared, and the request goes out with the earlier transcript
      as history. */
  function Submit(c: Conversation): (r: (Conversation, Option<Request>))
    ensures (c.loading || AllWhitespace(c.input)) <==> r.1.None?
    ensures r.1.None? ==> r.0 == c
    ensures r.1.Some? ==>
              && r.0.messages == c.messages + [Message(User, Trim(c.input))]
              && r.0.input == "" && r.0.loading
              && r.1.value == Request(c.messages, Trim(c.input))
              && |r.1.value.prompt| > 0
  {
    TrimEmptyIffBlank(c.input);
    var text := Trim(c.input);
    if |text| == 0 || c.loading then (c, None)
    else (Conversation("", c.messages + [Message(User, text)], true), Some(Request(c.messages, text)))
  }

  /** The text the model's turn shows: the reply when non-empty, the
      placeholder when empty or absent, the error line on failure. */
  function ReplyText(o: Outcome): (text: string)
    ensures o.Failed? ==> text == NETWORK_ERROR
    ensures o.Replied? && o.text.Some? && o.text.value != "" ==> text == o.text.value
    ensures o.Replied? && (o.text.None? || o.text.value == "") ==> text == EMPTY_REPLY
    ensures |text| > 0
  {
    match o
    case Failed => NETWORK_ERROR
    case Replied(t) => if t.Some? && t.value != "" then t.value else EMPTY_REPLY
  }

  /** The request's completion: the model's turn is appended and loading ends
      (the `finally`). */
  function Complete(c: Conversation, o: Outcome): (r: Conversation)
    ensures r.messages == c.messages + [Message(Model, ReplyText(o))]
    ensures !r.loading && r.input == c.input
  {
    c.(messages := c.messages + [Message(Model, ReplyText(o))], loading := false)
  }

  /** A completion only arrives for the request in flight. */
  predicate Admissible(c: Conversation, e: Event) {
    e.Settle? ==> c.loading
  }

  function Apply(c: Conversation, e: Event): Conversation {
    match e
    case Edit(text) => OnEdit(c, text)
    case Send => Submit(c).0
    case Settle(o) => Complete(c, o)
  }

  /** The transcript's shape: the greeting first, then turns alternating
      user / model, and a request in flight exactly when the user spoke
      last. */
  predicate WellFormed(c: Conversation) {
    && |c.messages| >= 1
    && c.messages[0] == Message(Model, GREETING)
    && (forall k :: 0 <= k < |c.messages| ==> c.messages[k].role == (if k % 2 == 0 then Model else User))
    && (c.loading <==> |c.messages| % 2 == 0)
  }

  lemma InitialWellFormed()
    ensures WellFormed(Initial())
  {
  }

  /** Every admissible event keeps the transcript well formed. */
  lemma WellFormedIsInvariant(c: Conversation, e: Event)
    requires WellFormed(c) && Admissible(c, e)
    ensures WellFormed(Apply(c, e))
    ensures |Apply(c, e).messages| >= |c.messages|
    ensures Apply(c, e).messages[..|c.messages|] == c.messages
  {
    match e
    case Edit(text) =>
      assert Apply(c, e).messages[..|c.messages|] == c.messages;
    case Send =>
      var (r, req) := Submit(c);
      if req.Some? {
        AppendKeepsShape(c.messages, Message(User, Trim(c.input)));
      } else {
        assert r.messages[..|c.messages|] == c.messages;
      }
    case Settle(o) =>
      AppendKeepsShape(c.messages, Message(Model, ReplyText(o)));
  }

  /** Appending the turn whose role the parity calls for keeps the
      alternation, and the old transcript is a prefix of the new one. */
  lemma AppendKeepsShape(ms: seq<Message>, m: Message)
    requires |ms| >= 1
    requires forall k :: 0 <= k < |ms| ==> ms[k].role == (if k % 2 == 0 then Model else User)
    requires m.role == (if |ms| % 2 == 0 then Model else User)
    ensures (ms + [m])[0] == ms[0]
    ensures forall k :: 0 <= k < |ms + [m]| ==> (ms + [m])[k].role == (if k % 2 == 0 then Model else User)
    ensures (ms + [m])[..|ms|] == ms
  {
    var r := ms + [m];
    forall k | 0 <= k < |r| ensures r[k].role == (if k % 2 == 0 then Model else User) {
      if k < |ms| { assert r[k] == ms[k]; } else { assert r[k] == m; }
    }
    assert r[..|ms|] == ms;
  }

  /** The request always carries the whole transcript before the new
      message, which therefore ends with a model turn: history and prompt
      alternate like the transcript does. */
  lemma RequestHistoryEndsWithModel(c: Conversation)
    requires WellFormed(c)
    ensures Submit(c).1.Some? ==>
              && Submit(c).1.value.history == c.messages
              && c.messages[|c.messages| - 1].role == Model
  {
    var last := |c.messages| - 1;
    if !c.loading {
      assert |c.messages| % 2 == 1;
      assert last % 2 == 0;
      assert c.messages[last].role == (if last % 2 == 0 then Model else User);
    }
  }

  /** Sending then completing adds exactly one exchange: the trimmed user
      message and the model's text. */
  lemma ExchangeAddsTwoTurns(c: Conversation, o: Outcome)
    requires WellFormed(c) && !c.loading && !AllWhitespace(c.input)
    ensures Complete(Submit(c).0, o).messages
         == c.messages + [Message(User, Trim(c.input)), Message(Model, ReplyText(o))]
    ensures WellFormed(Complete(Submit(c).0, o))
  {
    WellFormedIsInvariant(c, Send);
    WellFormedIsInvariant(Submit(c).0, Settle(o));
  }

  function ApplyAll(c: Conversation, events: seq<Event>): Conversation
    decreases |events|
  {
    if |events| == 0 then c else ApplyAll(Apply(c, events[0]), events[1..])
  }

  /** Every transcript reachable from mount through admissible events is
      well formed and still begins with the greeting. */
  lemma {:induction false} ReachableWellFormed(c: Conversation, events: seq<Event>)
    requires WellFormed(c)
    requires forall k :: 0 <= k < |events| ==> Admissible(ApplyAll(c, events[..k]), events[k])
    ensures WellFormed(ApplyAll(c, events))
    decreases |events|
  {
    if |events| > 0 {
      assert events[..0] == [];
      WellFormedIsInvariant(c, events[0]);
      var c1 := Apply(c, events[0]);
      forall k | 0 <= k < |events| - 1
        ensures Admissible(ApplyAll(c1, events[1..][..k]), events[1..][k])
      {
        assert events[..k + 1] == [events[0]] + events[1..][..k];
        assert events[..k + 1][1..] == events[1..][..k];
      }
      ReachableWellFormed(c1, events[1..]);
    }
  }
}

=== FILE: easing.dfy ===
/** Target-seeking parameters of the newer page (src/App.tsx): zoom and the
    two orbit radii each keep a current value and a target; every frame the
    current value moves 5% of the way to the target, and snaps onto it once
    the gap is within a per-parameter threshold. */
module Easing {
  import opened Numeric

  /** Fraction of the gap closed per frame. */
  const EASE: real := 0.05
  /** Gap at or below which zoom snaps to its target. */
  const ZOOM_SNAP: real := 0.01
  /** Gap at or below which an orbit radius snaps to its target. */
  const ORBIT_SNAP: real := 0.1

  /** The value the page draws with and the value it is heading for. */
  datatype Eased = Eased(current: real, target: real)

  function Gap(e: Eased): real {
    Abs(e.target - e.current)
  }

  /** `lerp(a, b, t)` of the physics loop. */
  function Lerp(a: real, b: real, t: real): real {
    a + (b - a) * t
  }

  /** One frame of easing with snap threshold `snap`. */
  function Step(e: Eased, snap: real): (r: Eased)
    requires snap >= 0.0
    ensures r.target == e.target
    // far away: move 5% of the way, strictly between the old value and the target
    ensures Gap(e) > snap ==>
              r.current == e.current + EASE * (e.target - e.current)
              && StrictlyBetween(e.current, r.current, e.target)
              && Gap(r) == (1.0 - EASE) * Gap(e)
    // close enough: land exactly on the target
    ensures Gap(e) <= snap ==> r.current == e.target
  {
    if Abs(e.target - e.current) > snap then
      Eased(Lerp(e.current, e.target, EASE), e.target)
    else if e.current != e.target then
      Eased(e.target, e.target)
    else
      e
  }

  /** A slider or preset writes the target only; what is drawn catches up
      frame by frame. */
  function Retarget(e: Eased, target: real): (r: Eased)
    ensures r.current == e.current && r.target == target
  {
    Eased(e.current, target)
  }

  /** n frames of easing. */
  function Run(e: Eased, snap: real, n: nat): Eased
    requires snap >= 0.0
    decreases n
  {
    if n == 0 then e else Run(Step(e, snap), snap, n - 1)
  }

  /** A parameter that sits on its target stays there. */
  lemma {:induction false} SettledStaysPut(e: Eased, snap: real, n: nat)
    requires snap >= 0.0
    requires e.current == e.target
    ensures Run(e, snap, n) == e
    decreases n
  {
    if n > 0 {
      assert Step(e, snap) == e;
      SettledStaysPut(e, snap, n - 1);
    }
  }

  /** No overshoot: after any number of frames the value lies between where
      it started and its target, and the target is unchanged. */
  lemma {:induction false} NoOvershoot(e: Eased, snap: real, n: nat)
    requires snap >= 0.0
    ensures Run(e, snap, n).target == e.target
    ensures Between(e.current, Run(e, snap, n).current, e.target)
    decreases n
  {
    if n > 0 {
      NoOvershoot(Step(e, snap), snap, n - 1);
    }
  }

  /** Each frame either lands on the target or shrinks the gap by the
      factor 1 - EASE; so after n frames the gap is at most 0.95^n of the
      first one, or already zero. */
  lemma {:induction false} GapDecays(e: Eased, snap: real, n: nat)
    requires snap >= 0.0
    ensures Gap(Run(e, snap, n)) == 0.0 || Gap(Run(e, snap, n)) <= Decay(1.0 - EASE, n, Gap(e))
    decreases n
  {
    if n > 0 {
      var e' := Step(e, snap);
      GapDecays(e', snap, n - 1);
      if Gap(e) <= snap {
        SettledStaysPut(e', snap, n - 1);
      }
    }
  }

  /** Exact convergence: with a positive threshold, finitely many frames put
      the value exactly on its target, and it stays there. */
  lemma Converges(e: Eased, snap: real) returns (n: nat)
    requires snap > 0.0
    ensures Run(e, snap, n).current == e.target
    ensures forall k: nat :: Run(Run(e, snap, n), snap, k) == Run(e, snap, n)
  {
    var m := DecayBelow(1.0 - EASE, Gap(e), snap);
    GapDecays(e, snap, m);
    var near := Run(e, snap, m);
    NoOvershoot(e, snap, m);
    n := m + 1;
    RunSplit(e, snap, m, 1);
    assert Run(e, snap, n) == Step(near, snap);
    var done := Run(e, snap, n);
    forall k: nat ensures Run(done, snap, k) == done {
      SettledStaysPut(done, snap, k);
    }
  }

  /** Running a + b frames is running a frames and then b more. */
  lemma {:induction false} RunSplit(e: Eased, snap: real, a: nat, b: nat)
    requires snap >= 0.0
    ensures Run(e, snap, a + b) == Run(Run(e, snap, a), snap, b)
    decreases a
  {
    if a > 0 {
      RunSplit(Step(e, snap), snap, a - 1, b);
    }
  }
}

=== FILE: epicycle.dfy ===
/** `calculateZ` of the canvas: the curve point at parameter t is the sum of
    three rotating vectors drawn tip to tail, of lengths RADIUS_1, radiusA
    and radiusB and angular frequencies FREQ_1..FREQ_3. */
module Epicycle {
  import opened Transcendental

  datatype Point = Point(x: real, y: real)

  const Origin: Point := Point(0.0, 0.0)

  function Add(p: Point, q: Point): Point {
    Point(p.x + q.x, p.y + q.y)
  }

  function Sub(p: Point, q: Point): Point {
    Point(p.x - q.x, p.y - q.y)
  }

  /** One drawn vector: where it starts, where it ends, and its radius. */
  datatype Segment = Segment(start: Point, end: Point, length: real)

  /** What `calculateZ` returns: the point and the three vectors. */
  datatype Sample = Sample(point: Point, vectors: seq<Segment>)

  /** The trigonometric functions used by the formula. */
  datatype Trig = Trig(sin: real -> real, cos: real -> real)

  /** RADIUS_1 and FREQ_1..FREQ_3 of the constants module, which is not part
      of this model; only their names and roles are known. */
  datatype Terms = Terms(radius1: real, freq1: real, freq2: real, freq3: real)

  /** The rotating term r * e^(i f t) as a point. */
  function Term(trig: Trig, radius: real, freq: real, t: real): Point {
    Point(radius * trig.cos(freq * t), radius * trig.sin(freq * t))
  }

  /** The vectors run tip to tail from the origin to the point. */
  predicate Chained(z: Sample) {
    && |z.vectors| == 3
    && z.vectors[0].start == Origin
    && z.vectors[0].end == z.vectors[1].start
    && z.vectors[1].end == z.vectors[2].start
    && z.vectors[2].end == z.point
  }

  /** `calculateZ(t)` with the current radii; no radius is clamped. */
  function CalculateZ(trig: Trig, k: Terms, radiusA: real, radiusB: real, t: real): (z: Sample)
    ensures Chained(z)
    // each vector is its rotating term, with that term's radius as length
    ensures Sub(z.vectors[0].end, z.vectors[0].start) == Term(trig, k.radius1, k.freq1, t)
    ensures Sub(z.vectors[1].end, z.vectors[1].start) == Term(trig, radiusA, k.freq2, t)
    ensures Sub(z.vectors[2].end, z.vectors[2].start) == Term(trig, radiusB, k.freq3, t)
    ensures z.vectors[0].length == k.radius1
    ensures z.vectors[1].length == radiusA
    ensures z.vectors[2].length == radiusB
    // so the point is the sum of the three terms
    ensures z.point == Add(Add(Term(trig, k.radius1, k.freq1, t), Term(trig, radiusA, k.freq2, t)),
                           Term(trig, radiusB, k.freq3, t))
  {
    var p1 := Term(trig, k.radius1, k.freq1, t);
    var p2 := Term(trig, radiusA, k.freq2, t);
    var p3 := Term(trig, radiusB, k.freq3, t);
    var tip1 := p1;
    var tip2 := Add(p1, p2);
    var tip3 := Add(tip2, p3);
    Sample(tip3,
           [ Segment(Origin, tip1, k.radius1),
             Segment(tip1, tip2, radiusA),
             Segment(tip2, tip3, radiusB) ])
  }

  /** The sum of the vectors' displacements in order. */
  function ChainSum(vs: seq<Segment>): Point
    decreases |vs|
  {
    if |vs| == 0 then Origin else Add(Sub(vs[0].end, vs[0].start), ChainSum(vs[1..]))
  }

  /** Tip to tail: the displacements of the three vectors add up to the
      point, for every t and every pair of radii. */
  lemma ChainSumsToPoint(trig: Trig, k: Terms, radiusA: real, radiusB: real, t: real)
    ensures ChainSum(CalculateZ(trig, k, radiusA, radiusB, t).vectors)
         == CalculateZ(trig, k, radiusA, radiusB, t).point
  {
    var z := CalculateZ(trig, k, radiusA, radiusB, t);
    var vs := z.vectors;
    var d0, d1, d2 := Sub(vs[0].end, vs[0].start), Sub(vs[1].end, vs[1].start), Sub(vs[2].end, vs[2].start);
    assert vs[1..][1..][1..] == [];
    assert ChainSum(vs[2..]) == d2 by {
      assert vs[2..] == [vs[2]];
    }
    assert ChainSum(vs[1..]) == Add(d1, d2) by {
      assert vs[1..][1..] == vs[2..];
    }
    assert ChainSum(vs) == Add(d0, Add(d1, d2));
  }

  /** At t = 0 every vector points along the positive x axis, so the point
      is (RADIUS_1 + radiusA + radiusB, 0). */
  lemma StartPoint(trig: Trig, k: Terms, radiusA: real, radiusB: real)
    requires trig.cos(0.0) == 1.0 && trig.sin(0.0) == 0.0
    ensures CalculateZ(trig, k, radiusA, radiusB, 0.0).point == Point(k.radius1 + radiusA + radiusB, 0.0)
  {
    assert k.freq1 * 0.0 == 0.0 && k.freq2 * 0.0 == 0.0 && k.freq3 * 0.0 == 0.0;
  }

  function SquaredNorm(p: Point): real {
    p.x * p.x + p.y * p.y
  }

  /** A rotating term has the squared length of its radius. */
  lemma TermNorm(trig: Trig, radius: real, freq: real, t: real)
    requires TrigLaws(trig.sin, trig.cos)
    ensures SquaredNorm(Term(trig, radius, freq, t)) == radius * radius
  {
    var c := trig.cos(freq * t);
    var s := trig.sin(freq * t);
    assert s * s + c * c == 1.0;
    calc {
      SquaredNorm(Term(trig, radius, freq, t));
      (radius * c) * (radius * c) + (radius * s) * (radius * s);
      radius * radius * (c * c + s * s);
    }
  }

  /** Every drawn vector is exactly as long as its declared radius, so the
      orbit circle of radius `length` centred at its start passes through
      its end. */
  lemma VectorsHaveTheirLength(trig: Trig, k: Terms, radiusA: real, radiusB: real, t: real, i: int)
    requires TrigLaws(trig.sin, trig.cos)
    requires 0 <= i < 3
    ensures var v := CalculateZ(trig, k, radiusA, radiusB, t).vectors[i];
            SquaredNorm(Sub(v.end, v.start)) == v.length * v.length
  {
    var z := CalculateZ(trig, k, radiusA, radiusB, t);
    var radius, freq := if i == 0 then k.radius1 else if i == 1 then radiusA else radiusB,
                        if i == 0 then k.freq1 else if i == 1 then k.freq2 else k.freq3;
    assert Sub(z.vectors[i].end, z.vectors[i].start) == Term(trig, radius, freq, t);
    assert z.vectors[i].length == radius;
    TermNorm(trig, radius, freq, t);
  }
}

=== FILE: gestures.dfy ===
/** The steering half of both pages: the wheel and touch handlers, the play
    button, the effect that mirrors the playing state into the ref read by
    the physics loop, and the interaction flag. The two pages share this
    logic.

    React state and refs are kept apart explicitly: `playing` is the
    `isPlaying` state a handler requests, `autoplay` is `isPlayingRef`, the
    value the physics loop reads. A handler only requests; the effect
    (`Commit`) runs afterwards, copies `playing` into `autoplay`, and zeroes
    the velocity when playback stopped. */
module Gestures {
  import opened Physics

  /** Velocity added per unit of wheel `deltaY`. */
  const WHEEL_GAIN: real := 0.0005
  /** Velocity added per pixel of upward finger travel. */
  const TOUCH_GAIN: real := 0.002

  datatype Steering = Steering(
    motion: Motion,      // θ and its velocity (the physics refs)
    playing: bool,       // the `isPlaying` state
    autoplay: bool,      // the ref the physics loop reads
    lastTouchY: real,    // previous touch sample
    interacting: bool    // the "user is interacting" flag behind the prompt
  )

  /** The ref already reflects the state: the play effect has nothing to do. */
  predicate Settled(s: Steering) {
    s.playing == s.autoplay
  }

  /** Every input the two pages react to. A touch carries whether its target
      is exempt from steering (an input control, or inside a scrollable
      panel). */
  datatype Input =
    | Frame
    | Wheel(deltaY: real)
    | TouchStart(exempt: bool, y: real)
    | TouchMove(exempt: bool, y: real)
    | Click
    | ActivityTimeout
    | TogglePlay
    | Commit
    | ToggleInfo
    | SetZoom(zoom: real)
    | SetOrbitA(orbitA: real)
    | SetOrbitB(orbitB: real)

  /** `handleUserInteraction`: raise the interaction flag (the one-second
      timer that lowers it again is the `ActivityTimeout` input). */
  function Interact(s: Steering): (r: Steering)
    ensures r.interacting
    ensures r.motion == s.motion && r.playing == s.playing && r.autoplay == s.autoplay
    ensures r.lastTouchY == s.lastTouchY
  {
    s.(interacting := true)
  }

  /** `if (isPlayingRef.current) setIsPlaying(false)`: a gesture asks to
      stop autoplay; the request is decided by the ref, not by the state. */
  function RequestStop(s: Steering): (r: Steering)
    ensures s.autoplay ==> !r.playing
    ensures !s.autoplay ==> r.playing == s.playing
    ensures r.motion == s.motion && r.autoplay == s.autoplay
    ensures r.interacting == s.interacting && r.lastTouchY == s.lastTouchY
  {
    if s.autoplay then s.(playing := false) else s
  }

  /** `handleWheel`: ignored while the info panel is open; otherwise marks
      interaction, requests a stop, and adds `deltaY * 0.0005` to velocity. */
  function OnWheel(s: Steering, panelOpen: bool, deltaY: real): (r: Steering)
    ensures panelOpen ==> r == s
    ensures !panelOpen ==>
              && r.motion == Motion(s.motion.theta, s.motion.velocity + deltaY * WHEEL_GAIN)
              && r.interacting
              && r.autoplay == s.autoplay
              && (s.autoplay ==> !r.playing)
              && (!s.autoplay ==> r.playing == s.playing)
              && r.lastTouchY == s.lastTouchY
  {
    if panelOpen then s
    else
      var s1 := RequestStop(Interact(s));
      s1.(motion := s1.motion.(velocity := s1.motion.velocity + deltaY * WHEEL_GAIN))
  }

  /** `handleTouchStart`: an exempt target is ignored entirely; otherwise
      record the finger, cancel momentum, mark interaction, request a stop. */
  function OnTouchStart(s: Steering, exempt: bool, y: real): (r: Steering)
    ensures exempt ==> r == s
    ensures !exempt ==>
              && r.lastTouchY == y
              && r.motion == Motion(s.motion.theta, 0.0)
              && r.interacting
              && r.autoplay == s.autoplay
              && (s.autoplay ==> !r.playing)
              && (!s.autoplay ==> r.playing == s.playing)
  {
    if exempt then s
    else
      var s1 := s.(lastTouchY := y, motion := s.motion.(velocity := 0.0));
      RequestStop(Interact(s1))
  }

  /** `handleTouchMove`: an exempt target is ignored entirely; otherwise the
      finger's travel since the previous sample (not since touch-down) is
      added as an impulse. Autoplay is not cancelled here. */
  function OnTouchMove(s: Steering, exempt: bool, y: real): (r: Steering)
    ensures exempt ==> r == s
    ensures !exempt ==>
              && r.lastTouchY == y
              && r.motion == Motion(s.motion.theta, s.motion.velocity + (s.lastTouchY - y) * TOUCH_GAIN)
              && r.interacting
              && r.playing == s.playing && r.autoplay == s.autoplay
  {
    if exempt then s
    else
      var s1 := Interact(s);
      var deltaY := s1.lastTouchY - y;
      s1.(lastTouchY := y, motion := s1.motion.(velocity := s1.motion.velocity + deltaY * TOUCH_GAIN))
  }

  /** The play button: `setIsPlaying(!isPlaying)`. The handler negates the
      `isPlaying` of the last render, not a request still pending; the last
      rendered value is the one the effect copied into the ref. */
  function OnTogglePlay(s: Steering): (r: Steering)
    ensures r.playing != s.autoplay
    ensures Settled(s) ==> r.playing == !s.playing
    ensures r.motion == s.motion && r.autoplay == s.autoplay
    ensures r.interacting == s.interacting && r.lastTouchY == s.lastTouchY
  {
    s.(playing := !s.autoplay)
  }

  /** The `[isPlaying]` effect, run after the render that changed the state:
      copy it into the ref and, when playback stopped, kill the velocity. */
  function OnCommit(s: Steering): (r: Steering)
    ensures Settled(r) && r.playing == s.playing
    ensures r.motion.theta == s.motion.theta
    ensures !s.playing && s.autoplay ==> r.motion.velocity == 0.0
    ensures s.playing ==> r.motion == s.motion
    ensures r.interacting == s.interacting && r.lastTouchY == s.lastTouchY
    ensures Settled(s) ==> r == s
  {
    if s.playing == s.autoplay then s
    else
      var s1 := s.(autoplay := s.playing);
      if !s.playing then s1.(motion := s1.motion.(velocity := 0.0)) else s1
  }

  /** One frame of the physics loop, driven by the ref. */
  function OnFrame(s: Steering): (r: Steering)
    ensures r.motion == Tick(s.motion, s.autoplay)
    ensures r.playing == s.playing && r.autoplay == s.autoplay
    ensures s.motion.theta >= 0.0 ==> r.motion.theta >= 0.0
  {
    s.(motion := Tick(s.motion, s.autoplay))
  }

  /** The steering inputs; the panel and slider inputs leave steering alone. */
  function Steer(s: Steering, panelOpen: bool, i: Input): (r: Steering)
    ensures s.motion.theta >= 0.0 ==> r.motion.theta >= 0.0
    ensures !i.Frame? ==> r.motion.theta == s.motion.theta
  {
    match i
    case Frame => OnFrame(s)
    case Wheel(deltaY) => OnWheel(s, panelOpen, deltaY)
    case TouchStart(exempt, y) => OnTouchStart(s, exempt, y)
    case TouchMove(exempt, y) => OnTouchMove(s, exempt, y)
    case Click => Interact(s)
    case ActivityTimeout => s.(interacting := false)
    case TogglePlay => OnTogglePlay(s)
    case Commit => OnCommit(s)
    case _ => s
  }

  /** The order made explicit: a wheel event that cancels autoplay adds its
      impulse, but the play effect that follows it wipes the velocity, so
      that first impulse never moves θ; the next frame is manual and idle. */
  lemma WheelThatStopsAutoplayIsAbsorbed(s: Steering, deltaY: real)
    requires Settled(s) && s.autoplay
    ensures OnWheel(s, false, deltaY).motion.velocity == s.motion.velocity + deltaY * WHEEL_GAIN
    ensures OnCommit(OnWheel(s, false, deltaY)).motion == Motion(s.motion.theta, 0.0)
    ensures !OnCommit(OnWheel(s, false, deltaY)).autoplay
    ensures OnFrame(OnCommit(OnWheel(s, false, deltaY))).motion == Motion(s.motion.theta, 0.0)
  {
  }

  /** In manual mode the effect has nothing to do and the wheel impulse
      survives into the velocity. */
  lemma WheelInManualModeKeepsImpulse(s: Steering, deltaY: real)
    requires Settled(s) && !s.autoplay
    ensures OnCommit(OnWheel(s, false, deltaY)) == OnWheel(s, false, deltaY)
    ensures OnWheel(s, false, deltaY).motion.velocity == s.motion.velocity + deltaY * WHEEL_GAIN
  {
  }

  /** Stopping playback from the button zeroes the velocity once the effect
      has run; starting it keeps the velocity, which the autoplay frames
      then ignore. */
  lemma TogglePlayThenCommit(s: Steering)
    requires Settled(s)
    ensures s.autoplay ==> OnCommit(OnTogglePlay(s)).motion == Motion(s.motion.theta, 0.0)
    ensures !s.autoplay ==> OnCommit(OnTogglePlay(s)).motion == s.motion
    ensures OnCommit(OnTogglePlay(s)).autoplay == !s.autoplay
  {
  }

  /** A wheel event that cancels autoplay and a press of the button before
      the effect has run: the button negates the rendered state (playing),
      so playback stays stopped and the effect zeroes the velocity. */
  lemma WheelThenToggleStaysStopped(s: Steering, deltaY: real)
    requires Settled(s) && s.autoplay
    ensures !OnTogglePlay(OnWheel(s, false, deltaY)).playing
    ensures OnCommit(OnTogglePlay(OnWheel(s, false, deltaY))).motion == Motion(s.motion.theta, 0.0)
    ensures !OnCommit(OnTogglePlay(OnWheel(s, false, deltaY))).autoplay
  {
  }

  /** Applies a drag: one touch-move per sample in `ys`. */
  function Drag(s: Steering, ys: seq<real>): Steering
    decreases |ys|
  {
    if |ys| == 0 then s else Drag(OnTouchMove(s, false, ys[0]), ys[1..])
  }

  /** Touch-moves are incremental: the impulses of a whole drag telescope to
      the net finger travel from the previous sample to the last one. */
  lemma {:induction false} DragTelescopes(s: Steering, ys: seq<real>)
    requires |ys| > 0
    ensures Drag(s, ys).lastTouchY == ys[|ys| - 1]
    ensures Drag(s, ys).motion
         == Motion(s.motion.theta, s.motion.velocity + (s.lastTouchY - ys[|ys| - 1]) * TOUCH_GAIN)
    ensures Drag(s, ys).playing == s.playing && Drag(s, ys).autoplay == s.autoplay
    decreases |ys|
  {
    var s1 := OnTouchMove(s, false, ys[0]);
    if |ys| > 1 {
      DragTelescopes(s1, ys[1..]);
      assert ys[1..][|ys[1..]| - 1] == ys[|ys| - 1];
      var last := ys[|ys| - 1];
      assert (s.lastTouchY - ys[0]) * TOUCH_GAIN + (ys[0] - last) * TOUCH_GAIN
          == (s.lastTouchY - last) * TOUCH_GAIN;
    } else {
      assert Drag(s1, ys[1..]) == s1;
    }
  }
}

=== FILE: legacy_app.dfy ===
/** The older page (root App.tsx): the same θ physics and gestures, but it
    starts paused, its sliders write the displayed values directly, and
    the panel toggle only flips the panel: nothing is eased. */
module LegacyApp {
  import opened Physics
  import opened Gestures

  datatype Page = Page(
    steering: Steering,
    infoOpen: bool,
    zoom: real,
    orbitA: real,
    orbitB: real
  )

  /** The state at mount: paused, θ = 0 at rest, zoom 1, orbits 0 and 100. */
  function Initial(): (p: Page)
    ensures p.steering.motion == Motion(0.0, 0.0)
    ensures !p.steering.playing && !p.steering.autoplay && Settled(p.steering)
    ensures !p.infoOpen
    ensures p.zoom == 1.0 && p.orbitA == 0.0 && p.orbitB == 100.0
  {
    Page(Steering(Motion(0.0, 0.0), false, false, 0.0, false), false, 1.0, 0.0, 100.0)
  }

  /** Every input of the page: a frame moves θ only, the toggle flips the
      panel only, a slider overwrites its value at once, and every gesture,
      play or timer input acts on the steering alone. */
  function Apply(p: Page, i: Input): (r: Page)
    ensures i.SetZoom? ==> r == p.(zoom := i.zoom)
    ensures i.SetOrbitA? ==> r == p.(orbitA := i.orbitA)
    ensures i.SetOrbitB? ==> r == p.(orbitB := i.orbitB)
    ensures i.ToggleInfo? ==> r == p.(infoOpen := !p.infoOpen)
    ensures i.Frame? ==> r == p.(steering := p.steering.(motion := Tick(p.steering.motion, p.steering.autoplay)))
    ensures !i.SetZoom? ==> r.zoom == p.zoom
    ensures !i.SetOrbitA? ==> r.orbitA == p.orbitA
    ensures !i.SetOrbitB? ==> r.orbitB == p.orbitB
    ensures !(i.ToggleInfo? || i.SetZoom? || i.SetOrbitA? || i.SetOrbitB?) ==>
              r == p.(steering := Steer(p.steering, p.infoOpen, i))
    ensures p.steering.motion.theta >= 0.0 ==> r.steering.motion.theta >= 0.0
  {
    match i
    case ToggleInfo => p.(infoOpen := !p.infoOpen)
    case SetZoom(v) => p.(zoom := v)
    case SetOrbitA(v) => p.(orbitA := v)
    case SetOrbitB(v) => p.(orbitB := v)
    case _ => p.(steering := Steer(p.steering, p.infoOpen, i))
  }

  function ApplyAll(p: Page, inputs: seq<Input>): Page
    decreases |inputs|
  {
    if |inputs| == 0 then p else ApplyAll(Apply(p, inputs[0]), inputs[1..])
  }

  /** θ is never negative in any state reachable from mount. */
  lemma {:induction false} ThetaNeverNegative(p: Page, inputs: seq<Input>)
    requires p.steering.motion.theta >= 0.0
    ensures ApplyAll(p, inputs).steering.motion.theta >= 0.0
    decreases |inputs|
  {
    if |inputs| > 0 {
      ThetaNeverNegative(Apply(p, inputs[0]), inputs[1..]);
    }
  }

  /** Paused from mount, frames alone never move θ: nothing has given it
      velocity yet. */
  lemma {:induction false} IdleUntilTouched(n: nat)
    ensures ApplyAll(Initial(), seq(n, _ => Frame)) == Initial()
    decreases n
  {
    if n > 0 {
      var rest := seq(n - 1, _ => Frame);
      assert seq(n, _ => Frame) == [Frame] + rest;
      assert Apply(Initial(), Frame) == Initial();
      assert ([Frame] + rest)[1..] == rest;
      IdleUntilTouched(n - 1);
    }
  }
}

=== FILE: links.dfy ===
/** `renderMessageText`: a chat message is split on the pattern
    `(https?:\/\/[^\s]+)` and every piece that contains a match is drawn as a
    link to itself, every other piece as plain text.

    The split follows `String.prototype.split` with a regular expression
    that has one capture group (section 22.2.6.14 of ECMA-262): scan for the
    leftmost match, emit the text before it and the captured match, resume
    after the match, and emit the rest at the end. */
module Links {
  import opened Text

  const HTTP: string := "http://"
  const HTTPS: string := "https://"

  /** Does `pre` occur in s at position i? Compared one character at a time. */
  predicate PrefixAt(s: string, i: nat, pre: string)
    decreases |pre|
  {
    |pre| == 0 || (i < |s| && s[i] == pre[0] && PrefixAt(s, i + 1, pre[1..]))
  }

  /** The character-wise comparison is the slice comparison. */
  lemma {:induction false} PrefixAtIsSlice(s: string, i: nat, pre: string)
    requires i <= |s|
    ensures PrefixAt(s, i, pre) <==> i + |pre| <= |s| && s[i..i + |pre|] == pre
    decreases |pre|
  {
    if |pre| > 0 && i < |s| {
      PrefixAtIsSlice(s, i + 1, pre[1..]);
      if i + |pre| <= |s| {
        var head, tail := s[i..i + |pre|], s[i + 1..i + |pre|];
        assert head == [s[i]] + tail;
        assert pre == [pre[0]] + pre[1..];
        if head == pre {
          assert s[i] == pre[0] && tail == pre[1..];
        }
      }
    }
  }

  /** A prefix seen through a slice is a prefix of the whole. */
  lemma PrefixAtSlice(s: string, i: nat, j: nat, pre: string)
    requires i <= j <= |s| && |pre| <= j - i
    ensures PrefixAt(s[i..j], 0, pre) <==> PrefixAt(s, i, pre)
  {
    PrefixAtIsSlice(s[i..j], 0, pre);
    PrefixAtIsSlice(s, i, pre);
    assert s[i..j][0..|pre|] == s[i..i + |pre|];
  }

  /** A URL with the given scheme: the scheme, then a non-empty run without
      white space. */
  predicate UrlWith(u: string, scheme: string) {
    |u| > |scheme| && PrefixAt(u, 0, scheme) && NoWhitespace(u[|scheme|..])
  }

  /** A whole URL as the pattern reads it. */
  predicate IsUrl(u: string) {
    UrlWith(u, HTTP) || UrlWith(u, HTTPS)
  }

  /** A URL cut out of s, read off s itself. */
  lemma UrlWithInside(s: string, i: nat, j: nat, scheme: string)
    requires i <= j <= |s|
    ensures UrlWith(s[i..j], scheme)
        <==> j > i + |scheme| && PrefixAt(s, i, scheme)
             && forall k :: i + |scheme| <= k < j ==> !IsWhitespace(s[k])
  {
    var u := s[i..j];
    if j > i + |scheme| {
      PrefixAtSlice(s, i, j, scheme);
      assert forall k :: |scheme| <= k < |u| ==> u[k] == s[i + k];
      if NoWhitespace(u[|scheme|..]) {
        forall k | i + |scheme| <= k < j ensures !IsWhitespace(s[k]) {
          assert u[|scheme|..][k - i - |scheme|] == s[k];
        }
      }
    }
  }

  /** Length of the run of non-white-space characters starting at i. */
  function RunLength(s: string, i: nat): (n: nat)
    requires i <= |s|
    ensures i + n <= |s|
    decreases |s| - i
  {
    if i == |s| || IsWhitespace(s[i]) then 0 else 1 + RunLength(s, i + 1)
  }

  /** The run is free of white space and stops at white space or the end. */
  lemma {:induction false} RunLengthIsMaximal(s: string, i: nat)
    requires i <= |s|
    ensures forall k :: i <= k < i + RunLength(s, i) ==> !IsWhitespace(s[k])
    ensures i + RunLength(s, i) == |s| || IsWhitespace(s[i + RunLength(s, i)])
    decreases |s| - i
  {
    if i < |s| && !IsWhitespace(s[i]) {
      RunLengthIsMaximal(s, i + 1);
    }
  }

  /** Does the scheme `scheme` start at i, followed by a non-white-space? */
  predicate SchemeAt(s: string, i: nat, scheme: string) {
    i + |scheme| < |s| && PrefixAt(s, i, scheme) && !IsWhitespace(s[i + |scheme|])
  }

  /** The length of the match of the pattern anchored at i, 0 when there is
      none: `s?` is greedy, so "https://" is tried before "http://", and
      `[^\s]+` takes the longest run. */
  function MatchAt(s: string, i: nat): (n: nat)
    requires i <= |s|
    ensures i + n <= |s|
    ensures n == 0 || n > |HTTP|
  {
    if SchemeAt(s, i, HTTPS) then |HTTPS| + RunLength(s, i + |HTTPS|)
    else if SchemeAt(s, i, HTTP) then |HTTP| + RunLength(s, i + |HTTP|)
    else 0
  }

  /** The scheme a match at i was made with. */
  function MatchScheme(s: string, i: nat): string
    requires i <= |s|
  {
    if SchemeAt(s, i, HTTPS) then HTTPS else HTTP
  }

  /** The matcher against the declarative reading: a match is a URL that is
      the longest URL starting at i; no match means no URL starts at i. */
  lemma MatchAtIsLongestUrl(s: string, i: nat)
    requires i <= |s|
    ensures MatchAt(s, i) > 0 ==>
              && i + MatchAt(s, i) <= |s|
              && IsUrl(s[i..i + MatchAt(s, i)])
              && forall j :: i + MatchAt(s, i) < j <= |s| ==> !IsUrl(s[i..j])
    ensures MatchAt(s, i) == 0 <==> forall j :: i < j <= |s| ==> !IsUrl(s[i..j])
  {
    if MatchAt(s, i) > 0 {
      MatchIsUrl(s, i);
      forall j | i + MatchAt(s, i) < j <= |s| ensures !IsUrl(s[i..j]) {
        LongerIsNotUrl(s, i, j);
      }
    } else {
      NoMatchMeansNoUrl(s, i);
    }
  }

  /** Where the pattern does not match, no URL starts. */
  lemma NoMatchMeansNoUrl(s: string, i: nat)
    requires i <= |s| && MatchAt(s, i) == 0
    ensures NoUrlStartsAt(s, i)
  {
    forall j | i < j <= |s| && IsUrl(s[i..j]) ensures false {
      UrlMeansMatch(s, i, j);
    }
  }

  /** The matched text is a URL. */
  lemma MatchIsUrl(s: string, i: nat)
    requires i <= |s| && MatchAt(s, i) > 0
    ensures i + MatchAt(s, i) <= |s| && IsUrl(s[i..i + MatchAt(s, i)])
  {
    var n := MatchAt(s, i);
    if SchemeAt(s, i, HTTPS) {
      SchemeRunIsUrl(s, i, HTTPS, n);
      assert UrlWith(s[i..i + n], HTTPS);
    } else {
      SchemeRunIsUrl(s, i, HTTP, n);
      assert UrlWith(s[i..i + n], HTTP);
    }
  }

  /** A scheme followed by its run of non-white-space, n characters in all,
      is a URL. */
  lemma SchemeRunIsUrl(s: string, i: nat, scheme: string, n: nat)
    requires SchemeAt(s, i, scheme) && n == |scheme| + RunLength(s, i + |scheme|)
    ensures i + n <= |s| && UrlWith(s[i..i + n], scheme)
  {
    RunLengthIsMaximal(s, i + |scheme|);
    assert n > |scheme|;
    UrlWithInside(s, i, i + n, scheme);
  }

  /** "http://" and "https://" never start at the same place. */
  lemma SchemesDiffer(s: string, i: nat)
    ensures !(PrefixAt(s, i, HTTPS) && PrefixAt(s, i, HTTP))
  {
  }

  /** Past the greedy run the next character is white space, so no longer
      prefix is a URL. */
  lemma LongerIsNotUrl(s: string, i: nat, j: nat)
    requires i <= |s| && MatchAt(s, i) > 0 && i + MatchAt(s, i) < j <= |s|
    ensures !IsUrl(s[i..j])
  {
    var n := MatchAt(s, i);
    RunLengthIsMaximal(s, i + |MatchScheme(s, i)|);
    assert IsWhitespace(s[i + n]);
    UrlWithInside(s, i, j, HTTPS);
    UrlWithInside(s, i, j, HTTP);
    if SchemeAt(s, i, HTTPS) {
      SchemesDiffer(s, i);
    }
  }

  /** A URL starting at i means the pattern matches at i. */
  lemma UrlMeansMatch(s: string, i: nat, j: nat)
    requires i < j <= |s| && IsUrl(s[i..j])
    ensures MatchAt(s, i) > 0
  {
    UrlWithInside(s, i, j, HTTPS);
    UrlWithInside(s, i, j, HTTP);
  }

  /** The anchored match length at every position of s. */
  function MatchTable(s: string): (m: seq<nat>)
    ensures Fits(s, m)
  {
    seq(|s|, i requires 0 <= i < |s| => MatchAt(s, i))
  }

  /** A table of match lengths for s: one entry per position, each match
      ending inside s. */
  predicate Fits(s: string, m: seq<nat>) {
    |m| == |s| && forall i :: 0 <= i < |s| ==> i + m[i] <= |s|
  }

  /** No URL of s starts at i. */
  predicate NoUrlStartsAt(s: string, i: nat)
    requires i <= |s|
  {
    forall j :: i < j <= |s| ==> !IsUrl(s[i..j])
  }

  /** No URL of s starts anywhere in [p, q). */
  predicate NoUrlIn(s: string, p: nat, q: nat)
    requires p <= q <= |s|
  {
    forall j :: p <= j < q ==> NoUrlStartsAt(s, j)
  }

  /** No URL starting at q runs past r. */
  predicate LongestAt(s: string, q: nat, r: nat)
    requires q <= r <= |s|
  {
    forall j :: r < j <= |s| ==> !IsUrl(s[q..j])
  }

  /** What the split needs of an entry: a positive one names the longest
      URL starting there, and no URL starts where it is zero. */
  predicate EntrySound(s: string, m: seq<nat>, i: nat)
    requires Fits(s, m) && i < |s|
  {
    && (m[i] > 0 ==> IsUrl(s[i..i + m[i]]) && LongestAt(s, i, i + m[i]))
    && (m[i] == 0 ==> NoUrlStartsAt(s, i))
  }

  /** Every entry of the table is sound. */
  predicate Sound(s: string, m: seq<nat>) {
    Fits(s, m) && forall i :: 0 <= i < |s| ==> EntrySound(s, m, i)
  }

  /** The table the split walks is built from the matcher, so it is sound. */
  lemma MatchTableIsSound(s: string)
    ensures Sound(s, MatchTable(s))
  {
    forall i | 0 <= i < |s| ensures EntrySound(s, MatchTable(s), i) {
      MatchTableEntrySound(s, i);
    }
  }

  /** One entry of the matcher's table is sound. */
  lemma MatchTableEntrySound(s: string, i: nat)
    requires i < |s|
    ensures EntrySound(s, MatchTable(s), i)
  {
    var m := MatchTable(s);
    assert m[i] == MatchAt(s, i);
    if m[i] > 0 {
      MatchAtIsLongestUrl(s, i);
    } else {
      NoMatchMeansNoUrl(s, i);
    }
  }

  /** `s.split(urlRegex)` from position q, the current piece having begun at
      p; m[k] is the length of the match anchored at k. */
  function SplitFrom(s: string, m: seq<nat>, p: nat, q: nat): seq<string>
    requires Fits(s, m) && p <= q <= |s|
    decreases |s| - q
  {
    if q == |s| then [s[p..]]
    else if m[q] > 0 then [s[p..q], s[q..q + m[q]]] + SplitFrom(s, m, q + m[q], q + m[q])
    else SplitFrom(s, m, p, q + 1)
  }

  /** `text.split(urlRegex)` on a whole message: the pieces alternate
      between text holding no URL and a URL, join back to the message, and
      are cut where the global expression cuts: each URL piece starts at the
      leftmost position where a URL starts and is the longest one there
      (`LeftmostLongest`, which fixes the pieces uniquely). */
  function Split(s: string): (parts: seq<string>)
    ensures Concat(parts) == s
    ensures Alternates(parts)
    ensures LeftmostLongest(s, 0, parts)
  {
    SplitFromConcat(s, MatchTable(s), 0, 0);
    MatchTableIsSound(s);
    SplitFromAlternates(s, MatchTable(s), 0, 0);
    SplitFromLeftmost(s, MatchTable(s), 0, 0);
    SplitFrom(s, MatchTable(s), 0, 0)
  }

  /** The pieces tile s from p as the global expression cuts it: a plain
      piece runs up to the leftmost position where a URL starts, the URL
      piece after it is the longest URL starting there, and the last piece
      is the rest, in which no URL starts. */
  predicate LeftmostLongest(s: string, p: nat, parts: seq<string>)
    requires p <= |s|
    decreases |parts|
  {
    if |parts| <= 1 then
      |parts| == 1 && parts[0] == s[p..] && NoUrlIn(s, p, |s|)
    else
      var q := p + |parts[0]|;
      var r := q + |parts[1]|;
      && |parts| >= 3
      && r <= |s|
      && parts[0] == s[p..q] && NoUrlIn(s, p, q)
      && parts[1] == s[q..r] && IsUrl(parts[1]) && LongestAt(s, q, r)
      && LeftmostLongest(s, r, parts[2..])
  }

  /** With a sound table, the split cuts at leftmost, longest URLs. */
  lemma {:induction false} SplitFromLeftmost(s: string, m: seq<nat>, p: nat, q: nat)
    requires Sound(s, m) && p <= q <= |s|
    requires forall k :: p <= k < q ==> m[k] == 0
    ensures LeftmostLongest(s, p, SplitFrom(s, m, p, q))
    decreases |s| - q
  {
    if q == |s| {
      ZerosHaveNoUrl(s, m, p, q);
    } else if m[q] > 0 {
      SplitFromLeftmost(s, m, q + m[q], q + m[q]);
      ZerosHaveNoUrl(s, m, p, q);
      assert EntrySound(s, m, q);
      LeftmostAtMatch(s, m, p, q);
    } else {
      SplitFromLeftmost(s, m, p, q + 1);
    }
  }

  /** The step of `SplitFromLeftmost` at a match. */
  lemma LeftmostAtMatch(s: string, m: seq<nat>, p: nat, q: nat)
    requires Fits(s, m) && p <= q < |s| && m[q] > 0
    requires NoUrlIn(s, p, q)
    requires IsUrl(s[q..q + m[q]]) && LongestAt(s, q, q + m[q])
    requires LeftmostLongest(s, q + m[q], SplitFrom(s, m, q + m[q], q + m[q]))
    ensures LeftmostLongest(s, p, SplitFrom(s, m, p, q))
  {
    var r := q + m[q];
    LeftmostCons(s, p, q, r, SplitFrom(s, m, r, r), SplitFrom(s, m, p, q));
  }

  /** Prefixing a URL-free gap and the longest URL after it. */
  lemma LeftmostCons(s: string, p: nat, q: nat, r: nat, rest: seq<string>, parts: seq<string>)
    requires p <= q <= r <= |s|
    requires NoUrlIn(s, p, q) && IsUrl(s[q..r]) && LongestAt(s, q, r)
    requires LeftmostLongest(s, r, rest)
    requires parts == [s[p..q], s[q..r]] + rest
    ensures LeftmostLongest(s, p, parts)
  {
    assert |rest| >= 1;
    assert parts[2..] == rest;
  }

  /** A URL cannot start inside a stretch where none starts. */
  lemma UrlBlocked(s: string, p: nat, e: nat, q: nat, r: nat)
    requires p <= q < e <= |s| && q < r <= |s|
    requires NoUrlIn(s, p, e)
    ensures !IsUrl(s[q..r])
  {
    assert NoUrlStartsAt(s, q);
  }

  /** Two longest URLs starting at the same place are the same. */
  lemma LongestIsUnique(s: string, q: nat, r1: nat, r2: nat)
    requires q <= r1 <= |s| && q <= r2 <= |s|
    requires IsUrl(s[q..r1]) && LongestAt(s, q, r1)
    requires IsUrl(s[q..r2]) && LongestAt(s, q, r2)
    ensures r1 == r2
  {
  }

  /** The first URL piece of a tiling with more than one piece. */
  lemma FirstUrl(s: string, p: nat, parts: seq<string>) returns (q: nat, r: nat)
    requires p <= |s| && LeftmostLongest(s, p, parts) && |parts| > 1
    ensures p <= q < r <= |s| && q == p + |parts[0]| && r == q + |parts[1]|
    ensures NoUrlIn(s, p, q) && IsUrl(s[q..r]) && LongestAt(s, q, r)
    ensures LeftmostLongest(s, r, parts[2..])
    ensures parts == [s[p..q], s[q..r]] + parts[2..]
  {
    q, r := p + |parts[0]|, p + |parts[0]| + |parts[1]|;
  }

  /** Where no URL starts at all, the tiling is the single remaining piece. */
  lemma OnlyOnePiece(s: string, p: nat, parts: seq<string>)
    requires p <= |s| && NoUrlIn(s, p, |s|) && LeftmostLongest(s, p, parts)
    ensures parts == [s[p..]]
  {
    if |parts| > 1 {
      var q, r := FirstUrl(s, p, parts);
      UrlBlocked(s, p, |s|, q, r);
    }
  }

  /** The leftmost, longest URL after p is the same in two tilings. */
  lemma SameFirstUrl(s: string, p: nat, qa: nat, ra: nat, qb: nat, rb: nat)
    requires p <= qa < ra <= |s| && p <= qb < rb <= |s|
    requires NoUrlIn(s, p, qa) && IsUrl(s[qa..ra]) && LongestAt(s, qa, ra)
    requires NoUrlIn(s, p, qb) && IsUrl(s[qb..rb]) && LongestAt(s, qb, rb)
    ensures qa == qb && ra == rb
  {
    if qa < qb {
      UrlBlocked(s, p, qb, qa, ra);
    } else if qb < qa {
      UrlBlocked(s, p, qa, qb, rb);
    } else {
      LongestIsUnique(s, qa, ra, rb);
    }
  }

  /** The cut is determined: at most one list of pieces tiles s from p
      by leftmost, longest URLs. */
  lemma {:induction false} LeftmostLongestIsUnique(s: string, p: nat, a: seq<string>, b: seq<string>)
    requires p <= |s| && LeftmostLongest(s, p, a) && LeftmostLongest(s, p, b)
    ensures a == b
    decreases |a|
  {
    if |a| <= 1 {
      OnlyOnePiece(s, p, b);
    } else if |b| <= 1 {
      OnlyOnePiece(s, p, a);
    } else {
      var qa, ra := FirstUrl(s, p, a);
      var qb, rb := FirstUrl(s, p, b);
      SameFirstUrl(s, p, qa, ra, qb, rb);
      LeftmostLongestIsUnique(s, ra, a[2..], b[2..]);
    }
  }

  /** `Split` is the only way to cut a message at leftmost, longest URLs:
      any tiling with that property is the split. */
  lemma SplitIsTheOnlyTiling(s: string, parts: seq<string>)
    requires LeftmostLongest(s, 0, parts)
    ensures parts == Split(s)
  {
    LeftmostLongestIsUnique(s, 0, parts, Split(s));
  }

  /** The pieces joined back together. */
  function Concat(parts: seq<string>): string
    decreases |parts|
  {
    if |parts| == 0 then "" else parts[0] + Concat(parts[1..])
  }

  /** `part.match(urlRegex)`: does a match start anywhere in the piece? */
  predicate ContainsUrl(t: string) {
    exists i :: 0 <= i < |t| && MatchAt(t, i) > 0
  }

  /** A slice of s at no position of which a URL of s starts contains no URL
      of its own: cutting the text can shorten a run but never create a
      scheme. */
  lemma GapHasNoUrl(s: string, p: nat, q: nat)
    requires p <= q <= |s|
    requires forall k :: p <= k < q ==> NoUrlStartsAt(s, k)
    ensures !ContainsUrl(s[p..q])
  {
    var t := s[p..q];
    forall i | 0 <= i < |t| ensures MatchAt(t, i) == 0 {
      assert NoUrlStartsAt(s, p + i);
      forall j | i < j <= |t| ensures !IsUrl(t[i..j]) {
        SliceOfSlice(s, p, q, i, j);
      }
      MatchAtIsLongestUrl(t, i);
    }
  }

  lemma SliceOfSlice(s: string, p: nat, q: nat, i: nat, j: nat)
    requires p <= q <= |s| && i <= j <= q - p
    ensures s[p..q][i..j] == s[p + i..p + j]
  {
    assert |s[p..q][i..j]| == j - i;
    forall k | 0 <= k < j - i ensures s[p..q][i..j][k] == s[p + i..p + j][k] {
      assert s[p..q][i..j][k] == s[p..q][i + k] == s[p + i + k];
    }
  }

  /** Where a sound table is zero, no URL starts. */
  lemma ZerosHaveNoUrl(s: string, m: seq<nat>, p: nat, q: nat)
    requires Sound(s, m) && p <= q <= |s|
    requires forall k :: p <= k < q ==> m[k] == 0
    ensures forall k :: p <= k < q ==> NoUrlStartsAt(s, k)
  {
    forall k | p <= k < q ensures NoUrlStartsAt(s, k) {
      assert EntrySound(s, m, k);
    }
  }

  /** A piece made of one URL contains a match (at its start). */
  lemma UrlContainsUrl(u: string)
    requires IsUrl(u)
    ensures ContainsUrl(u)
  {
    MatchAtIsLongestUrl(u, 0);
    assert u[0..|u|] == u;
  }

  /** The split as `renderMessageText` sees it: an odd number of pieces that
      put back together give the text; the odd-numbered pieces are the
      matches, each a URL; the others contain no URL at all. */
  predicate Alternates(parts: seq<string>) {
    && |parts| % 2 == 1
    && (forall k :: 0 <= k < |parts| && k % 2 == 1 ==> IsUrl(parts[k]))
    && (forall k :: 0 <= k < |parts| && k % 2 == 0 ==> !ContainsUrl(parts[k]))
  }

  /** The pieces put back together give the text from p on. */
  lemma {:induction false} SplitFromConcat(s: string, m: seq<nat>, p: nat, q: nat)
    requires Fits(s, m) && p <= q <= |s|
    ensures Concat(SplitFrom(s, m, p, q)) == s[p..]
    decreases |s| - q
  {
    if q == |s| {
      assert Concat([s[p..]]) == s[p..] + Concat([]);
    } else if m[q] > 0 {
      var r := q + m[q];
      SplitFromConcat(s, m, r, r);
      ConcatPair(s[p..q], s[q..r], SplitFrom(s, m, r, r), SplitFrom(s, m, p, q));
      SliceInThree(s, p, q, r);
    } else {
      SplitFromConcat(s, m, p, q + 1);
    }
  }

  lemma ConcatPair(a: string, b: string, rest: seq<string>, parts: seq<string>)
    requires parts == [a, b] + rest
    ensures Concat(parts) == a + (b + Concat(rest))
  {
    assert parts[1..] == [b] + rest;
    assert parts[1..][1..] == rest;
  }

  lemma SliceInThree(s: string, p: nat, q: nat, r: nat)
    requires p <= q <= r <= |s|
    ensures s[p..] == s[p..q] + (s[q..r] + s[r..])
  {
    assert s[q..r] + s[r..] == s[q..];
    assert s[p..q] + s[q..] == s[p..];
  }

  /** Prefixing a plain piece and a URL keeps the alternation. */
  lemma AlternatesCons(gap: string, url: string, rest: seq<string>, parts: seq<string>)
    requires !ContainsUrl(gap) && IsUrl(url) && Alternates(rest)
    requires parts == [gap, url] + rest
    ensures Alternates(parts)
  {
    forall k | 0 <= k < |parts| && k % 2 == 1 ensures IsUrl(parts[k]) {
      if k > 1 { assert parts[k] == rest[k - 2]; }
    }
    forall k | 0 <= k < |parts| && k % 2 == 0 ensures !ContainsUrl(parts[k]) {
      if k > 0 { assert parts[k] == rest[k - 2]; }
    }
  }

  /** With a sound table, pieces alternate between plain text and URLs. */
  lemma {:induction false} SplitFromAlternates(s: string, m: seq<nat>, p: nat, q: nat)
    requires Sound(s, m) && p <= q <= |s|
    requires forall k :: p <= k < q ==> m[k] == 0
    ensures Alternates(SplitFrom(s, m, p, q))
    decreases |s| - q
  {
    if q == |s| {
      ZerosHaveNoUrl(s, m, p, q);
      GapHasNoUrl(s, p, q);
      assert s[p..q] == s[p..];
    } else if m[q] > 0 {
      var r := q + m[q];
      SplitFromAlternates(s, m, r, r);
      ZerosHaveNoUrl(s, m, p, q);
      GapHasNoUrl(s, p, q);
      assert EntrySound(s, m, q);
      AlternatesCons(s[p..q], s[q..r], SplitFrom(s, m, r, r), SplitFrom(s, m, p, q));
    } else {
      SplitFromAlternates(s, m, p, q + 1);
    }
  }

  /** A piece of a rendered message. */
  datatype Piece = Plain(text: string) | Anchor(href: string, text: string)

  function Shown(piece: Piece): string {
    piece.text
  }

  /** Each piece: a link to itself when it contains a match, plain otherwise. */
  function RenderPiece(part: string): (r: Piece)
    ensures r.Anchor? <==> ContainsUrl(part)
    ensures r.Anchor? ==> r.href == part
    ensures r.text == part
  {
    if ContainsUrl(part) then Anchor(part, part) else Plain(part)
  }

  /** `renderMessageText`: the links are exactly the URLs the text
      contains, in alternation with plain text, each pointing at itself, and
      the displayed text is the message unchanged. */
  function RenderMessage(s: string): (pieces: seq<Piece>)
    ensures |pieces| % 2 == 1
    ensures forall k :: 0 <= k < |pieces| ==> (pieces[k].Anchor? <==> k % 2 == 1)
    ensures forall k :: 0 <= k < |pieces| && pieces[k].Anchor? ==>
              IsUrl(pieces[k].href) && pieces[k].href == pieces[k].text
    ensures ShownText(pieces) == s
    ensures LeftmostLongest(s, 0, Texts(pieces))
  {
    var parts := Split(s);
    var pieces := seq(|parts|, k requires 0 <= k < |parts| => RenderPiece(parts[k]));
    RenderFollowsSplit(parts, pieces);
    pieces
  }

  /** The text of every piece, in order. */
  function Texts(pieces: seq<Piece>): seq<string> {
    seq(|pieces|, k requires 0 <= k < |pieces| => pieces[k].text)
  }

  function ShownText(pieces: seq<Piece>): string
    decreases |pieces|
  {
    if |pieces| == 0 then "" else Shown(pieces[0]) + ShownText(pieces[1..])
  }

  lemma {:induction false} ShownIsConcat(parts: seq<string>, pieces: seq<Piece>)
    requires |pieces| == |parts|
    requires forall k :: 0 <= k < |parts| ==> pieces[k].text == parts[k]
    ensures ShownText(pieces) == Concat(parts)
    decreases |parts|
  {
    if |parts| > 0 {
      ShownIsConcat(parts[1..], pieces[1..]);
    }
  }

  /** Rendering alternating pieces piece by piece: anchors exactly at the
      URLs, and the text unchanged. */
  lemma RenderFollowsSplit(parts: seq<string>, pieces: seq<Piece>)
    requires Alternates(parts) && |pieces| == |parts|
    requires forall k :: 0 <= k < |parts| ==> pieces[k] == RenderPiece(parts[k])
    ensures forall k :: 0 <= k < |pieces| ==> (pieces[k].Anchor? <==> k % 2 == 1)
    ensures forall k :: 0 <= k < |pieces| && pieces[k].Anchor? ==>
              IsUrl(pieces[k].href) && pieces[k].href == pieces[k].text
    ensures ShownText(pieces) == Concat(parts)
    ensures Texts(pieces) == parts
  {
    forall k | 0 <= k < |pieces| ensures (pieces[k].Anchor? <==> k % 2 == 1) {
      if k % 2 == 1 { UrlContainsUrl(parts[k]); }
    }
    ShownIsConcat(parts, pieces);
  }
}

=== FILE: numeric.dfy ===
/** Real-number helpers shared by the whole model: the JavaScript `Math`
    functions the components use, and the geometric-decay bound behind every
    "it eventually stops / snaps" property. */
module Numeric {

  /** `Math.abs` */
  function Abs(x: real): real {
    if x < 0.0 then -x else x
  }

  /** `Math.max` on two (non-NaN) numbers */
  function Max(a: real, b: real): (r: real)
    ensures r >= a && r >= b
    ensures r == a || r == b
  {
    if a < b then b else a
  }

  /** `Math.min` on two (non-NaN) numbers */
  function Min(a: real, b: real): (r: real)
    ensures r <= a && r <= b
    ensures r == a || r == b
  {
    if a < b then a else b
  }

  /** x lies in the closed interval spanned by a and b (in either order). */
  predicate Between(a: real, x: real, b: real) {
    (a <= x <= b) || (b <= x <= a)
  }

  /** x lies strictly inside the open interval spanned by a and b. */
  predicate StrictlyBetween(a: real, x: real, b: real) {
    (a < x < b) || (b < x < a)
  }

  /** k raised to a natural power. */
  function Power(k: real, n: nat): real {
    if n == 0 then 1.0 else k * Power(k, n - 1)
  }

  lemma {:induction false} PowerNonNegative(k: real, n: nat)
    requires 0.0 <= k
    ensures 0.0 <= Power(k, n)
  {
    if n > 0 {
      PowerNonNegative(k, n - 1);
    }
  }

  /** p*a <= p*b for a non-negative p. */
  lemma MulMonotone(p: real, a: real, b: real)
    requires 0.0 <= p && a <= b
    ensures p * a <= p * b
  {
  }

  /** Dividing by more gives less: c/b <= c/a for 0 < a <= b and c >= 0. */
  lemma DivAntitone(c: real, a: real, b: real)
    requires 0.0 <= c && 0.0 < a <= b
    ensures c / b <= c / a
  {
    var qa, qb := c / a, c / b;
    assert qa * a == c && qb * b == c;
    assert 0.0 <= qb;
    MulMonotone(qb, a, b);
    assert qb * a <= qa * a;
  }

  /** Bernoulli's inequality in the form the decay proofs use:
      (1 - x)^n * (1 + n*x) <= 1 for 0 <= x <= 1. */
  lemma {:induction false} BernoulliDecay(x: real, n: nat)
    requires 0.0 <= x <= 1.0
    ensures Power(1.0 - x, n) * (1.0 + (n as real) * x) <= 1.0
  {
    if n > 0 {
      var p := Power(1.0 - x, n - 1);
      var m := (n - 1) as real;
      BernoulliDecay(x, n - 1);
      PowerNonNegative(1.0 - x, n - 1);
      BernoulliFactor(x, m);
      MulMonotone(p, (1.0 - x) * (1.0 + (m + 1.0) * x), 1.0 + m * x);
      Regroup(1.0 - x, p, 1.0 + (m + 1.0) * x);
    }
  }

  /** One factor of Bernoulli's step: (1 - x)(1 + (m+1)x) <= 1 + m x. */
  lemma BernoulliFactor(x: real, m: real)
    requires 0.0 <= x && 0.0 <= m
    ensures (1.0 - x) * (1.0 + (m + 1.0) * x) <= 1.0 + m * x
  {
    assert (1.0 - x) * (1.0 + (m + 1.0) * x) == 1.0 + m * x - (m + 1.0) * x * x;
    assert 0.0 <= (m + 1.0) * x * x;
  }

  lemma Regroup(a: real, p: real, c: real)
    ensures (a * p) * c == p * (a * c)
  {
  }

  /** p*d <= eps whenever p*c <= 1 and d <= c*eps. */
  lemma ScaledBound(p: real, d: real, c: real, eps: real)
    requires 0.0 <= p && 0.0 < eps
    requires p * c <= 1.0
    requires d <= c * eps
    ensures p * d <= eps
  {
    MulMonotone(p, d, c * eps);
    assert p * (c * eps) == (p * c) * eps;
    MulMonotone(eps, p * c, 1.0);
  }

  /** A step count large enough for `DecaysBelow`: d <= (1 + n x) eps. */
  lemma LargeEnough(x: real, d: real, eps: real) returns (n: nat)
    requires 0.0 < x && 0.0 <= d && 0.0 < eps
    ensures d <= (1.0 + (n as real) * x) * eps
  {
    var ex := eps * x;
    assert 0.0 < ex;
    var q := d / ex;
    assert 0.0 <= q;
    n := q.Floor + 1;
    assert q < n as real;
    assert q * ex == d;
    ScaleStrict(q, n as real, ex);
    assert (n as real) * ex == ((n as real) * x) * eps;
  }

  /** If q < n then q*c < n*c for positive c. */
  lemma ScaleStrict(q: real, n: real, c: real)
    requires q < n && 0.0 < c
    ensures q * c < n * c
  {
  }

  /** A quantity multiplied by (1 - x) each step falls to at most eps after
      finitely many steps; the witness is returned. */
  lemma DecaysBelow(x: real, d: real, eps: real) returns (n: nat)
    requires 0.0 < x <= 1.0
    requires 0.0 <= d
    requires 0.0 < eps
    ensures Power(1.0 - x, n) * d <= eps
  {
    n := LargeEnough(x, d, eps);
    BernoulliDecay(x, n);
    PowerNonNegative(1.0 - x, n);
    ScaledBound(Power(1.0 - x, n), d, 1.0 + (n as real) * x, eps);
  }

  /** d scaled by the factor k, n times over. Each step multiplies by k
      alone, so with a literal factor every step is linear arithmetic. */
  function Decay(k: real, n: nat, d: real): real
    decreases n
  {
    if n == 0 then d else Decay(k, n - 1, k * d)
  }

  /** Decay is monotone in the starting quantity. */
  lemma {:induction false} DecayMonotone(k: real, n: nat, a: real, b: real)
    requires 0.0 <= k && a <= b
    ensures Decay(k, n, a) <= Decay(k, n, b)
    decreases n
  {
    if n > 0 {
      MulMonotone(k, a, b);
      DecayMonotone(k, n - 1, k * a, k * b);
    }
  }

  /** Decay(k, n, d) is k^n * d. */
  lemma {:induction false} DecayIsPower(k: real, n: nat, d: real)
    ensures Decay(k, n, d) == Power(k, n) * d
    decreases n
  {
    if n > 0 {
      DecayIsPower(k, n - 1, k * d);
      assert Power(k, n - 1) * (k * d) == (k * Power(k, n - 1)) * d;
    }
  }

  /** With a factor below 1, finitely many steps bring any quantity down to
      eps; the witness is returned. */
  lemma DecayBelow(k: real, d: real, eps: real) returns (n: nat)
    requires 0.0 <= k < 1.0 && 0.0 <= d && 0.0 < eps
    ensures Decay(k, n, d) <= eps
  {
    n := DecaysBelow(1.0 - k, d, eps);
    assert 1.0 - (1.0 - k) == k;
    DecayIsPower(k, n, d);
  }
}

=== FILE: physics.dfy ===
/** The per-frame integration of the curve parameter θ, shared verbatim by
    both versions of the page (`updatePhysics`): autoplay advances θ by a
    fixed step, manual mode applies the velocity, clamps θ at the 0 wall and
    applies friction. */
module Physics {
  import opened Numeric

  /** θ added by one autoplay frame. */
  const AUTOPLAY_STEP: real := 0.01
  /** Speeds at or below this leave θ alone. */
  const REST_SPEED: real := 0.00001
  /** Velocity kept after each moving manual frame. */
  const FRICTION: real := 0.95

  /** The physics refs: θ and its angular velocity. */
  datatype Motion = Motion(theta: real, velocity: real)

  /** A manual frame with this motion changes nothing. */
  predicate Idle(m: Motion) {
    Abs(m.velocity) <= REST_SPEED
  }

  /** One frame of `updatePhysics` for θ; `autoplay` is the value the loop
      reads from the playing ref. */
  function Tick(m: Motion, autoplay: bool): (r: Motion)
    // autoplay: constant step, velocity untouched
    ensures autoplay ==> r.theta == m.theta + AUTOPLAY_STEP && r.velocity == m.velocity
    // manual and (nearly) still: nothing moves
    ensures !autoplay && Idle(m) ==> r == m
    // manual and moving: apply velocity, then friction; or hit the wall at 0
    ensures !autoplay && !Idle(m) && m.theta + m.velocity >= 0.0 ==>
              r.theta == m.theta + m.velocity && r.velocity == FRICTION * m.velocity
    ensures !autoplay && !Idle(m) && m.theta + m.velocity < 0.0 ==>
              r == Motion(0.0, 0.0)
    // the wall: θ never becomes negative
    ensures m.theta >= 0.0 ==> r.theta >= 0.0
  {
    if autoplay then
      Motion(m.theta + AUTOPLAY_STEP, m.velocity)
    else if Abs(m.velocity) > REST_SPEED then
      var theta := m.theta + m.velocity;
      if theta < 0.0 then Motion(0.0, 0.0 * FRICTION)
      else Motion(theta, m.velocity * FRICTION)
    else
      m
  }

  /** n manual frames in a row. */
  function Coast(m: Motion, n: nat): Motion
    decreases n
  {
    if n == 0 then m else Coast(Tick(m, false), n - 1)
  }

  /** A manual frame never speeds θ up and never reverses its direction. */
  lemma ManualTickSlows(m: Motion)
    ensures Abs(Tick(m, false).velocity) <= Abs(m.velocity)
    ensures Tick(m, false).velocity * m.velocity >= 0.0
  {
  }

  /** Once idle, manual frames leave the motion exactly as it is. */
  lemma {:induction false} IdleStaysPut(m: Motion, n: nat)
    requires Idle(m)
    ensures Coast(m, n) == m
    decreases n
  {
    if n > 0 {
      IdleStaysPut(Tick(m, false), n - 1);
    }
  }

  /** Manual θ stays on its side of the wall: θ >= 0 holds after any number
      of manual frames. */
  lemma {:induction false} CoastKeepsThetaNonNegative(m: Motion, n: nat)
    requires m.theta >= 0.0
    ensures Coast(m, n).theta >= 0.0
    decreases n
  {
    if n > 0 {
      CoastKeepsThetaNonNegative(Tick(m, false), n - 1);
    }
  }

  /** After n manual frames the speed is either already at rest or at most
      FRICTION^n times the initial speed. */
  lemma {:induction false} CoastDecays(m: Motion, n: nat)
    ensures Idle(Coast(m, n)) || Abs(Coast(m, n).velocity) <= Decay(FRICTION, n, Abs(m.velocity))
    decreases n
  {
    if n > 0 {
      var m' := Tick(m, false);
      CoastDecays(m', n - 1);
      if Idle(m) {
        IdleStaysPut(m, n);
      } else {
        MovingTickDecays(m);
        DecayMonotone(FRICTION, n - 1, Abs(m'.velocity), FRICTION * Abs(m.velocity));
      }
    }
  }

  /** A moving manual frame keeps at most 0.95 of the speed. */
  lemma MovingTickDecays(m: Motion)
    requires !Idle(m)
    ensures Abs(Tick(m, false).velocity) <= FRICTION * Abs(m.velocity)
  {
  }

  /** Inertia dies out: whatever the velocity, finitely many manual frames
      bring θ to rest, and from then on it never moves again. */
  lemma ComesToRest(m: Motion) returns (n: nat)
    ensures Idle(Coast(m, n))
    ensures forall k: nat :: Coast(Coast(m, n), k) == Coast(m, n)
  {
    n := DecayBelow(FRICTION, Abs(m.velocity), REST_SPEED);
    CoastDecays(m, n);
    var rest := Coast(m, n);
    forall k: nat ensures Coast(rest, k) == rest {
      IdleStaysPut(rest, k);
    }
  }
}

=== FILE: renderer.dfy ===
/** The canvas component: its own θ smoother, and the numeric plan of one
    draw: viewport and scale, the zoom-adaptive sampling walk from 0 to the
    smoothed θ, the line widths and marker sizes, the decorative overlay
    that is skipped at extreme zoom, and the point reported upward. */
module Renderer {
  import opened Numeric
  import opened Transcendental
  import opened Epicycle

  /** Fraction of the gap the smoother closes per frame. */
  const SMOOTHING: real := 0.15
  /** Gaps below this snap onto the target. */
  const SMOOTH_SNAP: real := 0.0001
  /** Largest sampling step (used at zoom <= 1). */
  const BASE_STEP: real := 0.05
  /** Smallest sampling step, whatever the zoom. */
  const MIN_STEP: real := 0.000005
  /** The overlay is drawn only below this zoom. */
  const OVERLAY_LIMIT: real := 50000.0
  /** Viewport size used when the container has no measured size. */
  const DEFAULT_WIDTH: real := 800.0
  const DEFAULT_HEIGHT: real := 600.0

  /** The `Math` functions a draw needs. */
  datatype MathLib = MathLib(trig: Trig, sqrt: real -> real, pow: (real, real) -> real, log10: real -> real)

  // ---------------------------------------------------------------------------
  // θ smoothing

  /** One frame of the renderer's own smoother, from the previous smoothed θ
      toward the θ the page passes in. */
  function Smooth(prev: real, target: real): (r: real)
    ensures Abs(target - prev) < SMOOTH_SNAP ==> r == target
    ensures Abs(target - prev) >= SMOOTH_SNAP ==>
              r == prev + SMOOTHING * (target - prev) && StrictlyBetween(prev, r, target)
    // never past the target, never below zero when both ends are not
    ensures Between(prev, r, target)
    ensures prev >= 0.0 && target >= 0.0 ==> r >= 0.0
    ensures Abs(target - r) == 0.0 || Abs(target - r) == (1.0 - SMOOTHING) * Abs(target - prev)
  {
    var diff := target - prev;
    if Abs(diff) < 0.0001 then target else prev + diff * 0.15
  }

  /** n frames of smoothing toward a fixed target. */
  function SmoothRun(prev: real, target: real, n: nat): real
    decreases n
  {
    if n == 0 then prev else SmoothRun(Smooth(prev, target), target, n - 1)
  }

  /** After n frames the gap is zero or at most 0.85^n of the first one. */
  lemma {:induction false} SmoothGapDecays(prev: real, target: real, n: nat)
    ensures SmoothRun(prev, target, n) == target
         || Abs(target - SmoothRun(prev, target, n)) <= Decay(1.0 - SMOOTHING, n, Abs(target - prev))
    decreases n
  {
    if n > 0 {
      var next := Smooth(prev, target);
      SmoothGapDecays(next, target, n - 1);
      if next == target {
        SmoothStaysOnTarget(target, n - 1);
      }
    }
  }

  /** On the target the smoother stays put. */
  lemma {:induction false} SmoothStaysOnTarget(target: real, n: nat)
    ensures SmoothRun(target, target, n) == target
    decreases n
  {
    if n > 0 {
      SmoothStaysOnTarget(target, n - 1);
    }
  }

  /** The drawn θ reaches the page's θ exactly after finitely many frames
      (when the page's θ holds still). */
  lemma SmoothConverges(prev: real, target: real) returns (n: nat)
    ensures SmoothRun(prev, target, n) == target
  {
    var m := DecayBelow(1.0 - SMOOTHING, Abs(target - prev), SMOOTH_SNAP / 2.0);
    SmoothGapDecays(prev, target, m);
    n := m + 1;
    SmoothRunSplit(prev, target, m);
  }

  /** One more frame after m frames. */
  lemma {:induction false} SmoothRunSplit(prev: real, target: real, m: nat)
    ensures SmoothRun(prev, target, m + 1) == Smooth(SmoothRun(prev, target, m), target)
    decreases m
  {
    if m > 0 {
      SmoothRunSplit(Smooth(prev, target), target, m - 1);
    }
  }

  // ---------------------------------------------------------------------------
  // sampling step

  /** `Math.max(0.000005, 0.05 / Math.max(1, Math.sqrt(zoom)))` */
  function SampleStep(sqrt: real -> real, zoom: real): (step: real)
    ensures MIN_STEP <= step <= BASE_STEP
  {
    Max(0.000005, 0.05 / Max(1.0, sqrt(zoom)))
  }

  /** Squaring is strictly increasing on the non-negative reals. */
  lemma SquareMonotone(a: real, b: real)
    requires 0.0 <= a && 0.0 <= b
    ensures a < b ==> a * a < b * b
  {
    if a < b {
      assert b * b - a * a == (b - a) * (b + a);
      PositiveProduct(b - a, b + a);
    }
  }

  lemma PositiveProduct(x: real, y: real)
    requires x > 0.0 && y > 0.0
    ensures x * y > 0.0
  {
  }

  /** sqrt is monotone on the non-negative reals. */
  lemma SqrtMonotone(sqrt: real -> real, x: real, y: real)
    requires SqrtLaws(sqrt)
    requires 0.0 <= x <= y
    ensures sqrt(x) <= sqrt(y)
  {
    SquareMonotone(sqrt(y), sqrt(x));
  }

  /** At zoom at most 1 the step is the full 0.05. */
  lemma StepAtLowZoom(sqrt: real -> real, zoom: real)
    requires SqrtLaws(sqrt)
    requires 0.0 <= zoom <= 1.0
    ensures SampleStep(sqrt, zoom) == BASE_STEP
  {
    SquareMonotone(1.0, sqrt(zoom));
  }

  /** More zoom never means a coarser step. */
  lemma StepNonIncreasing(sqrt: real -> real, z1: real, z2: real)
    requires SqrtLaws(sqrt)
    requires 0.0 <= z1 <= z2
    ensures SampleStep(sqrt, z2) <= SampleStep(sqrt, z1)
  {
    SqrtMonotone(sqrt, z1, z2);
    var m1, m2 := Max(1.0, sqrt(z1)), Max(1.0, sqrt(z2));
    DivAntitone(0.05, m1, m2);
  }

  // ---------------------------------------------------------------------------
  // viewport and transform

  /** The container's measured size, if the container exists. */
  datatype Rect = NoRect | Rect(width: real, height: real)

  datatype Viewport = Viewport(width: real, height: real)

  /** `rect?.width || 800`, `rect?.height || 600`: a missing rect or a zero
      size falls back to the default. */
  function Measure(rect: Rect): (v: Viewport)
    ensures rect.NoRect? ==> v == Viewport(DEFAULT_WIDTH, DEFAULT_HEIGHT)
    ensures rect.Rect? ==> v.width == (if rect.width == 0.0 then DEFAULT_WIDTH else rect.width)
    ensures rect.Rect? ==> v.height == (if rect.height == 0.0 then DEFAULT_HEIGHT else rect.height)
    ensures v.width != 0.0 && v.height != 0.0
  {
    match rect
    case NoRect => Viewport(800.0, 600.0)
    case Rect(w, h) => Viewport(if w == 0.0 then 800.0 else w, if h == 0.0 then 600.0 else h)
  }

  /** The screen centre. */
  function Center(v: Viewport): Point {
    Point(v.width / 2.0, v.height / 2.0)
  }

  /** Pixels per math unit: the smaller side divided by 4.5, times zoom. */
  function Scale(v: Viewport, zoom: real): (s: real)
    ensures v.width > 0.0 && v.height > 0.0 && zoom > 0.0 ==> s > 0.0
  {
    Min(v.width, v.height) / 4.5 * zoom
  }

  /** Math coordinates to screen coordinates: scale about the centre, with
      y flipped so that math "up" is screen "up". */
  function ToScreen(v: Viewport, zoom: real, p: Point): (q: Point)
    ensures p == Origin ==> q == Center(v)
    ensures q.y - Center(v).y == -(p.y * Scale(v, zoom))
    ensures q.x - Center(v).x == p.x * Scale(v, zoom)
  {
    var c := Center(v);
    var s := Scale(v, zoom);
    Point(c.x + p.x * s, c.y - p.y * s)
  }

  /** Screen coordinates back to math coordinates. */
  function FromScreen(v: Viewport, zoom: real, q: Point): Point
    requires Scale(v, zoom) != 0.0
  {
    var c := Center(v);
    var s := Scale(v, zoom);
    Point((q.x - c.x) / s, (c.y - q.y) / s)
  }

  /** The transform is invertible whenever the scale is non-zero, so two
      different curve points never land on the same pixel position. */
  lemma ScreenRoundTrip(v: Viewport, zoom: real, p: Point)
    requires Scale(v, zoom) != 0.0
    ensures FromScreen(v, zoom, ToScreen(v, zoom, p)) == p
  {
  }

  // ---------------------------------------------------------------------------
  // widths and sizes

  /** Path line width: thinner as zoom passes 50 and then 5000. */
  function PathWidth(zoom: real): (w: real)
    ensures w == 0.1 || w == 0.25 || w == 0.5
    ensures w == 0.5 <==> zoom <= 50.0
    ensures w == 0.1 <==> zoom > 5000.0
  {
    if zoom > 5000.0 then 0.1 else if zoom > 50.0 then 0.25 else 0.5
  }

  lemma PathWidthNonIncreasing(z1: real, z2: real)
    requires z1 <= z2
    ensures PathWidth(z2) <= PathWidth(z1)
  {
  }

  /** Vector line width `1 / Math.max(1, Math.log10(zoom))`. */
  function LinkWidth(log10: real -> real, zoom: real): (w: real)
    ensures 0.0 < w <= 1.0
  {
    1.0 / Max(1.0, log10(zoom))
  }

  /** Joint marker radius `Math.max(1, 3 / Math.pow(zoom, 0.3))`. */
  function JointSize(pow: (real, real) -> real, zoom: real): (s: real)
    requires pow(zoom, 0.3) > 0.0
    ensures s >= 1.0
  {
    Max(1.0, 3.0 / pow(zoom, 0.3))
  }

  /** Head marker radius `Math.max(1.5, 4 / Math.pow(zoom, 0.3))`. */
  function DotSize(pow: (real, real) -> real, zoom: real): (s: real)
    requires pow(zoom, 0.3) > 0.0
    ensures s >= 1.5
  {
    Max(1.5, 4.0 / pow(zoom, 0.3))
  }

  /** Markers shrink (never grow) as zoom increases, and the head is never
      smaller than a joint. */
  lemma MarkersShrinkWithZoom(pow: (real, real) -> real, z1: real, z2: real)
    requires PowLaws(pow)
    requires 0.0 < z1 <= z2
    ensures JointSize(pow, z2) <= JointSize(pow, z1)
    ensures DotSize(pow, z2) <= DotSize(pow, z1)
    ensures JointSize(pow, z1) <= DotSize(pow, z1)
  {
    var p1, p2 := pow(z1, 0.3), pow(z2, 0.3);
    assert 0.0 < p1 <= p2;
    assert 3.0 / p2 <= 3.0 / p1;
    assert 4.0 / p2 <= 4.0 / p1;
    assert 3.0 / p1 <= 4.0 / p1;
  }

  /** Whether the vectors, orbits and markers are drawn at all. */
  predicate ShowsOverlay(zoom: real) {
    zoom < OVERLAY_LIMIT
  }

  // ---------------------------------------------------------------------------
  // one draw

  datatype Circle = Circle(center: Point, radius: real)
  datatype Line = Line(from: Point, to: Point, highlighted: bool)

  /** The decorative layer: per vector an orbit circle, the vector and a
      joint at its start; then the head marker on the curve point. */
  datatype Overlay =
    | NoOverlay
    | Overlay(orbits: seq<Circle>, links: seq<Line>, linkWidth: real, joints: seq<Circle>, head: Circle)

  datatype Drawing = Drawing(pathWidth: real, path: seq<Point>, overlay: Overlay, reported: Point)

  /** The overlay for a sample `z` (the body of `vectors.forEach`). */
  function Decorate(lib: MathLib, v: Viewport, zoom: real, z: Sample): (o: Overlay)
    requires lib.pow(zoom, 0.3) > 0.0
    requires |z.vectors| == 3
    ensures o.Overlay? && |o.orbits| == 3 && |o.links| == 3 && |o.joints| == 3
    ensures forall i :: 0 <= i < 3 ==>
              && o.orbits[i] == Circle(ToScreen(v, zoom, z.vectors[i].start), z.vectors[i].length * Scale(v, zoom))
              && o.links[i].from == ToScreen(v, zoom, z.vectors[i].start)
              && o.links[i].to == ToScreen(v, zoom, z.vectors[i].end)
              && (o.links[i].highlighted <==> i == 2)
              && o.joints[i].center == ToScreen(v, zoom, z.vectors[i].start)
              && o.joints[i].radius >= 1.0
    ensures o.head.center == ToScreen(v, zoom, z.point) && o.head.radius >= 1.5
  {
    var s := Scale(v, zoom);
    var js := JointSize(lib.pow, zoom);
    Overlay(
      seq(3, i requires 0 <= i < 3 => Circle(ToScreen(v, zoom, z.vectors[i].start), z.vectors[i].length * s)),
      seq(3, i requires 0 <= i < 3 => Line(ToScreen(v, zoom, z.vectors[i].start), ToScreen(v, zoom, z.vectors[i].end), i == 2)),
      LinkWidth(lib.log10, zoom),
      seq(3, i requires 0 <= i < 3 => Circle(ToScreen(v, zoom, z.vectors[i].start), js)),
      Circle(ToScreen(v, zoom, z.point), DotSize(lib.pow, zoom)))
  }

  /** k <= floor(theta / step) when k * step <= theta. */
  lemma UnderFloor(k: int, step: real, theta: real)
    requires step > 0.0
    requires (k as real) * step <= theta
    ensures k <= (theta / step).Floor
  {
    assert (k as real) <= theta / step;
  }

  /** The i-th parameter the sampling loop visits (without the drift of
      repeated floating-point addition). */
  function SampleAt(i: int, step: real): real {
    (i as real) * step
  }

  /** The parameters of the sampling loop `for (t = 0; t <= θ; t += step)`:
      0, step, 2*step, ... up to the last one not past θ. */
  method SampleTimes(theta: real, step: real) returns (ts: seq<real>)
    requires step > 0.0
    ensures forall i :: 0 <= i < |ts| ==> ts[i] == SampleAt(i, step)
    ensures forall i :: 0 <= i < |ts| ==> ts[i] <= theta
    ensures SampleAt(|ts|, step) > theta
    ensures forall i, j :: 0 <= i < j < |ts| ==> ts[i] < ts[j]
    ensures theta >= 0.0 <==> |ts| > 0
  {
    ts := [];
    var k: nat := 0;
    while (k as real) * step <= theta
      invariant |ts| == k
      invariant forall i :: 0 <= i < k ==> ts[i] == SampleAt(i, step)
      invariant forall i :: 0 <= i < k ==> ts[i] <= theta
      invariant k > 0 ==> theta >= 0.0
      decreases (theta / step).Floor + 1 - k
    {
      UnderFloor(k, step, theta);
      ts := ts + [SampleAt(k, step)];
      k := k + 1;
    }
    forall i, j | 0 <= i < j < |ts| ensures ts[i] < ts[j] {
      assert SampleAt(i, step) < SampleAt(j, step);
    }
  }

  /** `path` is the stroked polyline for θ and `step`: the curve point for
      t = 0, then the curve point of every sample 0, step, 2*step, ... that
      is not past θ, in order, stopping at the first one past θ, then the
      exact curve point for θ. */
  ghost predicate TracesCurve(path: seq<Point>, trig: Trig, k: Terms, v: Viewport, zoom: real,
                              radiusA: real, radiusB: real, theta: real, step: real)
  {
    && |path| >= 2
    && path[0] == ToScreen(v, zoom, CalculateZ(trig, k, radiusA, radiusB, 0.0).point)
    && path[|path| - 1] == ToScreen(v, zoom, CalculateZ(trig, k, radiusA, radiusB, theta).point)
    && (forall i :: 1 <= i < |path| - 1 ==>
          SampleAt(i - 1, step) <= theta
          && path[i] == ToScreen(v, zoom, CalculateZ(trig, k, radiusA, radiusB, SampleAt(i - 1, step)).point))
    && SampleAt(|path| - 2, step) > theta
  }

  /** The stroked path of one draw. */
  method TracePath(trig: Trig, k: Terms, v: Viewport, zoom: real, radiusA: real, radiusB: real,
                   theta: real, step: real)
    returns (path: seq<Point>)
    requires step > 0.0
    ensures TracesCurve(path, trig, k, v, zoom, radiusA, radiusB, theta, step)
  {
    var ts := SampleTimes(theta, step);
    var start := ToScreen(v, zoom, CalculateZ(trig, k, radiusA, radiusB, 0.0).point);
    var walk := seq(|ts|, i requires 0 <= i < |ts| => ToScreen(v, zoom, CalculateZ(trig, k, radiusA, radiusB, ts[i]).point));
    var end := ToScreen(v, zoom, CalculateZ(trig, k, radiusA, radiusB, theta).point);
    path := [start] + walk + [end];
    forall i | 1 <= i < |path| - 1
      ensures SampleAt(i - 1, step) <= theta
      ensures path[i] == ToScreen(v, zoom, CalculateZ(trig, k, radiusA, radiusB, SampleAt(i - 1, step)).point)
    {
      assert path[i] == walk[i - 1];
    }
  }

  /** One pass of the drawing effect: the path starts at the curve point for
      t = 0, visits every sample of the walk in order, and ends on the exact
      curve point for the smoothed θ; the overlay is there exactly below the
      zoom limit; the reported point is the un-rounded curve point either way. */
  method Draw(lib: MathLib, k: Terms, rect: Rect, smoothTheta: real, zoom: real, radiusA: real, radiusB: real)
    returns (d: Drawing)
    requires PowLaws(lib.pow) && zoom > 0.0
    ensures d.reported == CalculateZ(lib.trig, k, radiusA, radiusB, smoothTheta).point
    ensures d.pathWidth == PathWidth(zoom)
    ensures d.overlay.Overlay? <==> ShowsOverlay(zoom)
    ensures d.overlay
         == if ShowsOverlay(zoom)
            then Decorate(lib, Measure(rect), zoom, CalculateZ(lib.trig, k, radiusA, radiusB, smoothTheta))
            else NoOverlay
    ensures d.overlay.Overlay? ==> d.overlay.head.center == ToScreen(Measure(rect), zoom, d.reported)
    ensures TracesCurve(d.path, lib.trig, k, Measure(rect), zoom, radiusA, radiusB, smoothTheta,
                        SampleStep(lib.sqrt, zoom))
  {
    var v := Measure(rect);
    var z := CalculateZ(lib.trig, k, radiusA, radiusB, smoothTheta);
    var step := SampleStep(lib.sqrt, zoom);
    var path := TracePath(lib.trig, k, v, zoom, radiusA, radiusB, smoothTheta, step);
    var overlay := NoOverlay;
    if zoom < 50000.0 {
      assert lib.pow(zoom, 0.3) > 0.0;
      overlay := Decorate(lib, v, zoom, z);
    }
    d := Drawing(PathWidth(zoom), path, overlay, z.point);
  }
}

=== FILE: text.dfy ===
/** The JavaScript notion of white space, shared by `String.prototype.trim`
    and the regular-expression class `\s`: the WhiteSpace and
    LineTerminator code points of section 12.2 and 12.3 of ECMA-262. */
module Text {

  predicate IsWhitespace(c: char) {
    || c == ' ' || c == '\t' || c == '\n' || c == '\r'
    || c == '\U{000B}' || c == '\U{000C}' || c == '\U{00A0}' || c == '\U{FEFF}'
    || c == '\U{1680}' || ('\U{2000}' <= c <= '\U{200A}')
    || c == '\U{2028}' || c == '\U{2029}' || c == '\U{202F}' || c == '\U{205F}'
    || c == '\U{3000}'
  }

  predicate AllWhitespace(s: string) {
    forall k :: 0 <= k < |s| ==> IsWhitespace(s[k])
  }

  predicate NoWhitespace(s: string) {
    forall k :: 0 <= k < |s| ==> !IsWhitespace(s[k])
  }

  /** The first index at or after i that is not white space (|s| if none):
      where `trim` starts cutting no more from the left. */
  function SkipLeading(s: string, i: nat): (k: nat)
    requires i <= |s|
    ensures i <= k <= |s|
    ensures forall m :: i <= m < k ==> IsWhitespace(s[m])
    ensures k == |s| || !IsWhitespace(s[k])
    decreases |s| - i
  {
    if i == |s| || !IsWhitespace(s[i]) then i else SkipLeading(s, i + 1)
  }

  /** Scanning down from j to lo, the end of the last non-white-space
      character (lo if none): where `trim` stops cutting from the right. */
  function SkipTrailing(s: string, lo: nat, j: nat): (k: nat)
    requires lo <= j <= |s|
    ensures lo <= k <= j
    ensures forall m :: k <= m < j ==> IsWhitespace(s[m])
    ensures k == lo || !IsWhitespace(s[k - 1])
    decreases j
  {
    if j == lo || !IsWhitespace(s[j - 1]) then j else SkipTrailing(s, lo, j - 1)
  }

  /** `s.trim()`: a slice of the input that neither starts nor ends with
      white space, everything cut off on either side being white space. */
  function Trim(s: string): (r: string)
    ensures exists i, j :: 0 <= i <= j <= |s| && r == s[i..j]
                           && AllWhitespace(s[..i]) && AllWhitespace(s[j..])
    ensures |r| == 0 || (!IsWhitespace(r[0]) && !IsWhitespace(r[|r| - 1]))
  {
    var i := SkipLeading(s, 0);
    var j := SkipTrailing(s, i, |s|);
    CutIsWhitespace(s, i, j);
    s[i..j]
  }

  /** What the two scans leave outside the slice is white space. */
  lemma CutIsWhitespace(s: string, i: nat, j: nat)
    requires i <= j <= |s|
    requires forall m :: 0 <= m < i ==> IsWhitespace(s[m])
    requires forall m :: j <= m < |s| ==> IsWhitespace(s[m])
    ensures AllWhitespace(s[..i]) && AllWhitespace(s[j..])
  {
    forall k | 0 <= k < i ensures IsWhitespace(s[..i][k]) {
      assert s[..i][k] == s[k];
    }
    forall k | 0 <= k < |s| - j ensures IsWhitespace(s[j..][k]) {
      assert s[j..][k] == s[j + k];
    }
  }

  /** A string trims to nothing exactly when it is all white space: the
      condition under which the chat refuses to send. */
  lemma TrimEmptyIffBlank(s: string)
    ensures |Trim(s)| == 0 <==> AllWhitespace(s)
  {
    var i := SkipLeading(s, 0);
    var j := SkipTrailing(s, i, |s|);
    assert |Trim(s)| == j - i;
    if i < |s| {
      assert !IsWhitespace(s[i]);
    }
  }
}

=== FILE: transcendental.dfy ===
/** The JavaScript `Math` functions the renderer and the zoom slider call
    (`sin`, `cos`, `sqrt`, `pow`, `log`) are not computable over `real`, so
    the model takes them as function-valued parameters. Each predicate below
    states the laws of one family; a lemma assumes only the family it needs,
    as a precondition. */
module Transcendental {

  /** `Math.sin` / `Math.cos` at 0, and the Pythagorean identity. */
  ghost predicate TrigLaws(sin: real -> real, cos: real -> real) {
    && sin(0.0) == 0.0
    && cos(0.0) == 1.0
    && (forall a :: sin(a) * sin(a) + cos(a) * cos(a) == 1.0)
  }

  /** `Math.sqrt` on the non-negative reals. */
  ghost predicate SqrtLaws(sqrt: real -> real) {
    forall x :: x >= 0.0 ==> sqrt(x) >= 0.0 && sqrt(x) * sqrt(x) == x
  }

  /** `Math.pow` with a positive base: positive, b^0 = 1, b^1 = b, strictly
      increasing in the exponent when b > 1 and in the base when e > 0. */
  ghost predicate PowLaws(pow: (real, real) -> real) {
    && (forall b, e :: b > 0.0 ==> pow(b, e) > 0.0)
    && (forall b :: b > 0.0 ==> pow(b, 0.0) == 1.0)
    && (forall b :: b > 0.0 ==> pow(b, 1.0) == b)
    && (forall b, x, y :: b > 1.0 && x < y ==> pow(b, x) < pow(b, y))
    && (forall a, b, e :: 0.0 < a < b && e > 0.0 ==> pow(a, e) < pow(b, e))
  }

  /** `Math.log` (natural): log 1 = 0, strictly increasing on the positive
      reals, and the inverse of `pow` in the sense log(b^e) = e * log b. */
  ghost predicate LogLaws(log: real -> real, pow: (real, real) -> real) {
    && log(1.0) == 0.0
    && (forall x, y :: 0.0 < x < y ==> log(x) < log(y))
    && (forall b, e :: b > 0.0 ==> log(pow(b, e)) == e * log(b))
  }
}

=== FILE: zoom_control.dfy ===
/** The zoom slider of the info panel: a logarithmic scale mapping slider
    positions 0..100 onto zooms 1..333333, a snap to exactly 1 at the left
    end, and the "x…" / "x…k" label. */
module ZoomControl {
  import opened Transcendental

  const MAX_ZOOM: real := 333333.0
  /** Slider positions below this send zoom 1 exactly. */
  const SNAP_POSITION: real := 0.01
  /** Zooms from this on are labelled in thousands. */
  const KILO: real := 1000.0

  /** `toSlider`: the slider position showing a zoom. */
  function ToSlider(log: real -> real, zoom: real): (s: real)
    requires log(MAX_ZOOM) != 0.0
    ensures zoom == MAX_ZOOM ==> s == 100.0
    ensures s == 0.0 <==> log(zoom) == 0.0
  {
    log(zoom) / log(MAX_ZOOM) * 100.0
  }

  /** `fromSlider`: the zoom at a slider position. */
  function FromSlider(pow: (real, real) -> real, s: real): (zoom: real)
    ensures PowLaws(pow) ==> zoom > 0.0
    ensures PowLaws(pow) && s == 0.0 ==> zoom == 1.0
    ensures PowLaws(pow) && s == 100.0 ==> zoom == MAX_ZOOM
  {
    pow(MAX_ZOOM, s / 100.0)
  }

  /** `handleSliderChange`: the zoom sent to the page for a slider position. */
  function OnSliderChange(pow: (real, real) -> real, s: real): (zoom: real)
    ensures s < SNAP_POSITION ==> zoom == 1.0
    ensures s >= SNAP_POSITION ==> zoom == FromSlider(pow, s)
  {
    if s < 0.01 then 1.0 else FromSlider(pow, s)
  }

  /** Over the slider's range 0..100 every zoom sent lies in 1..333333. */
  lemma SliderZoomInRange(pow: (real, real) -> real, s: real)
    requires PowLaws(pow)
    requires 0.0 <= s <= 100.0
    ensures 1.0 <= OnSliderChange(pow, s) <= MAX_ZOOM
    ensures s >= SNAP_POSITION ==> 1.0 < OnSliderChange(pow, s)
  {
    if s >= 0.01 {
      assert pow(MAX_ZOOM, 0.0) == 1.0 && pow(MAX_ZOOM, 1.0) == MAX_ZOOM;
      assert 0.0 < s / 100.0 <= 1.0;
      if s < 100.0 {
        assert pow(MAX_ZOOM, s / 100.0) < pow(MAX_ZOOM, 1.0);
      }
      assert pow(MAX_ZOOM, 0.0) < pow(MAX_ZOOM, s / 100.0);
    }
  }

  /** Larger slider positions mean strictly more zoom. */
  lemma FromSliderIncreasing(pow: (real, real) -> real, s1: real, s2: real)
    requires PowLaws(pow)
    requires s1 < s2
    ensures FromSlider(pow, s1) < FromSlider(pow, s2)
  {
    assert s1 / 100.0 < s2 / 100.0;
  }

  /** The slider shows the position that produced the zoom: reading the
      position back from `fromSlider(s)` gives s. */
  lemma SliderRoundTrip(pow: (real, real) -> real, log: real -> real, s: real)
    requires PowLaws(pow) && LogLaws(log, pow)
    ensures log(MAX_ZOOM) > 0.0
    ensures ToSlider(log, FromSlider(pow, s)) == s
  {
    assert log(1.0) < log(MAX_ZOOM);
    assert log(pow(MAX_ZOOM, s / 100.0)) == (s / 100.0) * log(MAX_ZOOM);
  }

  /** What the slider reports back for a move: the snapped zone reads 0,
      anything else reads the position itself. */
  lemma SliderChangeRoundTrip(pow: (real, real) -> real, log: real -> real, s: real)
    requires PowLaws(pow) && LogLaws(log, pow)
    ensures log(MAX_ZOOM) > 0.0
    ensures s < SNAP_POSITION ==> ToSlider(log, OnSliderChange(pow, s)) == 0.0
    ensures s >= SNAP_POSITION ==> ToSlider(log, OnSliderChange(pow, s)) == s
  {
    SliderRoundTrip(pow, log, s);
  }

  /** The zoom label before number formatting: a magnitude and whether it is
      shown in thousands ("k"). */
  datatype Label = Label(magnitude: real, thousands: bool) {
    /** The zoom the label stands for. */
    function Zoom(): real {
      if thousands then magnitude * KILO else magnitude
    }
  }

  /** `zoom < 1000 ? x${zoom} : x${zoom/1000}k` */
  function ZoomLabel(zoom: real): (l: Label)
    ensures l.thousands <==> zoom >= KILO
    ensures l.Zoom() == zoom
    ensures 1.0 <= zoom <= MAX_ZOOM ==> 1.0 <= l.magnitude < KILO
  {
    if zoom < 1000.0 then Label(zoom, false) else Label(zoom / 1000.0, true)
  }

  /** The label text, given the formatter of the magnitude (`toFixed(1)`). */
  function LabelText(format: real -> string, l: Label): (text: string)
    ensures |text| >= 1 && text[0] == 'x'
    ensures l.thousands ==> text[|text| - 1] == 'k'
  {
    "x" + format(l.magnitude) + (if l.thousands then "k" else "")
  }
}
